=== FILE: README.md ===
# filelink-webdav: authentication session and upload bookkeeping, in Dafny

This project models the core of the Thunderbird FileLink WebDAV add-on. The add-on stores mail
attachments on a WebDAV server and puts links to them in the mail. The model covers four parts
of the add-on:

- **`FetchSession`** (`background/fetchAuth.js`) is a small HTTP authentication library used
  by the WebExtension. It keeps per-origin state: the scheme, the last challenge, the user
  name and the nonce count. It parses the `WWW-Authenticate` challenge of a `401` answer. It
  builds `Basic` and `Digest` `Authorization` values (RFC 2069, and section 3.4 of RFC 7616
  when the challenge's `qop` list contains `auth` or `auth-int`). It retries a challenged
  request at most once: only with truthy credentials and a scheme that `addAuthentication`
  attaches a header for.
- **The background script** (`background/background.js`) has three pieces in the model:
  - its own `fetchAuth`, which retries once with `Basic` credentials when a `401` comes
    without a challenge;
  - the quota figures reported after a PROPFIND;
  - the upload, delete and abort listeners, with their tables of abort controllers and
    uploaded files.
- **`nsWebDAV`** (`components/nsWebDAV.js`) is the provider of the older XPCOM add-on. The
  model covers:
  - how a finished request's status is classified;
  - the table of running uploads and the URL of an uploaded file;
  - the normalisation of the quota figures;
  - the check that the base URL is a WebDAV collection;
  - the guards that refuse every operation while Thunderbird is offline.
- **`extraArgs`** of the account settings page (`chrome/content/settings.js`) turns the base
  URL the user typed into a preference value.

Each module is one file:

| module | file | what it holds |
|---|---|---|
| `Wrappers` | `wrappers.dfy` | `Option`, `Result`, and the JavaScript exceptions the code can raise |
| `Text` | `text.dfy` | the JavaScript string operations the code relies on: `\s`, `trim`, decimal rendering, `padStart`, ASCII `toLowerCase`, case-insensitive `replace` |
| `Base64` | `base64.dfy` | `btoa` (section 4 of RFC 4648) and its inverse |
| `Challenge` | `challenge.dfy` | `parseWWWAuth`, with the exact behaviour of its two regular expressions |
| `Digest` | `digest.dfy` | `hash`, `quote` and the computation of `createDigestAuth` |
| `DigestWire` | `digest_wire.dfy` | the Digest `Authorization` value read back by `parseWWWAuth` |
| `Session` | `session.dfy` | `FetchSession`: state functions, and the class whose methods update it in place |
| `Background` | `background.dfy` | the background script |
| `LegacyProvider` | `legacy_provider.dfy` | `nsWebDAV` |
| `Settings` | `settings.dfy` | `extraArgs` |

Stateful code is modelled as classes:

- `FetchSession`, `WebDavProvider`, `CloudFileListeners`, `AbortController` and `Channel`
  update their fields in place.
- Each method is proved against a function over values. For example, `FetchSession.Fetch`
  leaves the session in `FetchExchange(old state, ...)`.
- The properties the code promises are proved as lemmas about those functions.

Parameters stand in for what the model cannot see:

- the hash primitives;
- the network, a function from the attempt number and the request to the response;
- `Math.random`;
- the XML parser and the preferences, replaced by the values they would deliver.

### Behaviour of the code worth knowing

The model follows the code:

- An unknown Digest algorithm name is hashed with MD5 (the `default` branch of `hash`); it is
  not refused. `Digest.UnknownAlgorithmExample` shows this.
- A challenge without `realm` or `nonce` is not rejected. The missing value renders as
  `undefined` in the digest input (A1, the data of `KD` and the userhash input) and as an empty
  quoted string in the header, since `quote` writes an undefined value as the empty string
  (`Digest.MissingFieldsQuotedEmpty`).
- After a `401` with a challenge, the session stores whatever scheme the challenge names. It
  retries only when `addAuthentication` knows that scheme (`Basic` or `Digest`).
- The `stale` parameter only decides whether the `prompter` hook is called. That hook returns
  the options unchanged, so `stale` has no effect on what is sent.
- Each of the three character classes of the regular expressions has a range that ends at the
  letter `x` where `\x7E` was meant: `\x21-x` in the scheme class, `\x3E-x` in the parameter
  name class and `\x2D-x` in the unquoted value class. The model uses the classes as written.
- `parseWWWAuth` consumes input from the start of the match to the end of the string, not from
  the match position. Any text skipped before a parameter is consumed again as part of the
  next search. `Challenge.ShiftedConsumption` proves the result on
  `Basic a=1, b=2, cde=3`: a spurious parameter `de` appears.
- `params` is a plain object, so assigning a string to `params["__proto__"]` stores nothing.
  The model's parameter table skips that name too (`Challenge.SetParam`), and
  `Challenge.ProtoNotStored` shows `Basic __proto__=x` parsing to an empty table.
- With `userhash="true"` the code replaces the user name by `H(user ":" realm)` before it
  builds A1, so the digest is computed over the hashed name. Section 3.4.4 of RFC 7616 hashes
  only the name the header carries and keeps the plain name in A1. `Digest.ResponseIsRfc`
  therefore matches the RFC's response only without `userhash="true"`; with it, the user in
  A1 is the hashed name.

## Model

| member | source | states |
|---|---|---|
| Base64.BtoaRoundTrip | background/fetchAuth.js:35-37 | `btoa` throws exactly when a character is above U+00FF; otherwise decoding its output gives back the input |
| Challenge.RunEndMaximal | background/fetchAuth.js:117-118 | a greedy character-class run covers only class characters and stops at the end or at the first non-class character |
| Challenge.RunEndUnique | background/fetchAuth.js:117-118 | any run of class characters that is maximal is the one the greedy run finds |
| Challenge.MatchScheme | background/fetchAuth.js:117 | a scheme match is a non-empty prefix of the input, followed by at least one whitespace character that it consumes |
| Challenge.MatchSchemeExactly | background/fetchAuth.js:117-125 | the scheme regex matches iff some prefix of scheme characters is followed by whitespace; without a match the result has no scheme and no parameters |
| Challenge.NoSpaceNoScheme | background/fetchAuth.js:117-132 | a header made only of scheme characters yields no scheme and no parameters |
| Challenge.BareBasic | background/fetchAuth.js:117-132 | the header `Basic` alone yields a null scheme and no parameters |
| Challenge.MatchAt | background/fetchAuth.js:118 | a parameter match at a position starts there and its name and value lie inside the input |
| Challenge.FindParam | background/fetchAuth.js:108-118 | the unanchored parameter search finds a match at or after the start, inside the input |
| Challenge.ParamsFromStep | background/fetchAuth.js:127-129 | one loop turn stores the matched name with its value (a `__proto__` name stores nothing), then continues on the input cut at the match length from its start |
| Challenge.LoopTurn | background/fetchAuth.js:108-129 | the same step, stated for a match, the rest of the input, and the name and value it stores |
| Challenge.ParseWWWAuth | background/fetchAuth.js:107-133 | the loop over consumed matches computes the scheme and parameter table of the parsing specification |
| Challenge.StoreAllKeeps | background/fetchAuth.js:128 | storing parameters of other names keeps a name's presence and value |
| Challenge.StoreAllFind | background/fetchAuth.js:128 | after a run of stores, a name other than `__proto__` holds the value of its last occurrence (quoted values unquoted, tokens as written) |
| Challenge.MatchWritten | background/fetchAuth.js:118 | a well-formed `name=value` written at the start (optionally after a comma) is matched exactly over its extent |
| Challenge.StoredWritten | background/fetchAuth.js:128 | the matched name is the written name and the stored value is the written value, with the quotes removed |
| Challenge.ParamsFromWritten | background/fetchAuth.js:127-129 | parsing a written parameter stores it and continues right after it |
| Challenge.ParamsFromJoin | background/fetchAuth.js:127-129 | parsing a comma-joined list of well-formed parameters stores each, the later occurrence of a name winning |
| Challenge.SchemeWritten | background/fetchAuth.js:117 | a scheme written before one space and non-space text is matched as that scheme |
| Challenge.ParseJoined | background/fetchAuth.js:107-133 | `scheme list` parses back to that scheme and the table of the list's parameters |
| Challenge.ShiftedConsumption | background/fetchAuth.js:111 | `Basic a=1, b=2, cde=3` parses to `a=1, b=2, cde=3` plus a spurious `de=3`, because consumption is counted from the start of the input |
| Challenge.ProtoNotStored | background/fetchAuth.js:128 | a parameter named `__proto__` is not stored: `Basic __proto__=x` parses to scheme `Basic` and an empty table |
| Digest.HashAlgOf | background/fetchAuth.js:17-32 | the four SHA names select their digest exactly; every other name selects MD5 |
| Digest.HashDispatch | background/fetchAuth.js:17-32 | each primitive's own name selects it; any name other than the four SHA names selects MD5 |
| Digest.EscapeRoundTrip | background/fetchAuth.js:39-41 | on text without backslashes, the escaped text is a valid quoted-string body and unescaping restores the text |
| Digest.QuoteTrailingBackslash | background/fetchAuth.js:39-41 | `quote` does not escape backslashes: `a\` is written as `"a\"`, which is not a valid quoted string |
| Digest.SessStripped | background/fetchAuth.js:47-85 | for a name with no `-sess` inside, `name-sess` resolves to `name` and is a session algorithm |
| Digest.NoSessIn | background/fetchAuth.js:47 | a name with no `-` followed by `s`/`S` contains no case-insensitive `-sess` |
| Digest.AlgorithmDefault | background/fetchAuth.js:47 | an absent or empty algorithm resolves to MD5 |
| Digest.SessAlgorithmExample | background/fetchAuth.js:47 | `SHA-256-sess` hashes with SHA-256 |
| Digest.UnknownAlgorithmExample | background/fetchAuth.js:47 | an unknown name such as `SHA-512-256` hashes with MD5 rather than being refused |
| Digest.SplitQop | background/fetchAuth.js:61 | splitting yields at least one piece and no piece contains a comma |
| Digest.SplitJoin | background/fetchAuth.js:61 | splitting on comma-plus-whitespace undoes joining pieces that have no comma and do not start with whitespace |
| Digest.SelectQop | background/fetchAuth.js:63-69 | `auth-int` when offered; otherwise `auth` when offered; otherwise none |
| Digest.QopOfList | background/fetchAuth.js:60-69 | the qop chosen from a written list is the one chosen from the list itself |
| Digest.QopExamples | background/fetchAuth.js:60-69 | `auth, auth-int` selects `auth-int`; `auth` selects `auth` |
| Digest.NcPad | background/fetchAuth.js:88 | the padded count is all digits and at least eight characters long |
| Digest.NcPadRoundTrip | background/fetchAuth.js:88 | the padded count reads back as the count; it is exactly eight characters iff the count is below 10^8 |
| Digest.MissingFieldsQuotedEmpty | background/fetchAuth.js:39-41 | a challenge without `realm` or `nonce` gets `""` for it in the header |
| Digest.ResponseIsRfc | background/fetchAuth.js:51-97 | the response is the RFC 2069 digest when no qop is selected (the offered list has neither `auth` nor `auth-int`) and the section 3.4.1 RFC 7616 digest when one is, `-sess` variant included, over the user `c.user`: the user name itself without `userhash="true"`, and `H(user ":" realm)` with it, where section 3.4.4 of RFC 7616 would keep the plain name in A1 |
| DigestWire.QuoteTextReadable | background/fetchAuth.js:39-41 | quoting text without backslashes gives a valid quoted-string body |
| DigestWire.QopToken | background/fetchAuth.js:100 | the unquoted qop value (`auth`, `auth-int` or `null`) is a token |
| DigestWire.NcToken | background/fetchAuth.js:101 | the unquoted nc value is a token |
| DigestWire.FieldNames | background/fetchAuth.js:99-103 | every field name of the Digest header is a parameter name the parser accepts |
| DigestWire.FieldsWellFormed | background/fetchAuth.js:99-103 | when the quoted values are valid and the bare ones are tokens, every header field is well formed |
| DigestWire.ComputedPlain | background/fetchAuth.js:43-97 | with backslash-free digests and user name, the computed response, user and cnonce contain no backslash, the qop is one of the three values and the count is padded |
| DigestWire.HeaderReadable | background/fetchAuth.js:99-103 | from a writable challenge and plain computed values, the assembled header is readable |
| DigestWire.AuthorizationShape | background/fetchAuth.js:99-103 | the Authorization value is `Digest ` followed by the comma-joined fields |
| DigestWire.ParseDigest | background/fetchAuth.js:99-133 | `parseWWWAuth` reads a readable header back as scheme `Digest` and the table of its fields |
| DigestWire.AuthorizationParses | background/fetchAuth.js:43-133 | for every writable challenge the Digest value is produced and parses back to the scheme `Digest` and its fields |
| DigestWire.FieldLookup | background/fetchAuth.js:99-103 | the parsed table holds `nc`, `qop`, `response`, `username` and `userhash` with the values written |
| DigestWire.AuthorizationFields | background/fetchAuth.js:43-133 | the parsed value's `nc` reads back as the count, its `qop` is the selected qop (or `null`), its `response` is the computed digest, its `username` is the user of the calculation and its `userhash` is the challenge's flag or `false`; that user is `H(user ":" realm)` exactly when the challenge says `userhash="true"`, and the plain user otherwise |
| DigestWire.AuthorizationUser | background/fetchAuth.js:51-99 | the `username` the header is parsed back to is the quoted user name the calculation used |
| DigestWire.UserInA1 | background/fetchAuth.js:51-57 | for a non-`-sess` algorithm and a non-empty name, the header's `username`, once unescaped, is the user A1 is hashed from, with the realm and the password |
| Session.LookupStore | background/fetchAuth.js:135-142 | storing an origin's data makes it the data read back for that origin; other origins and the last nonce are unchanged |
| Session.BasicAuthRoundTrip | background/fetchAuth.js:35-37 | Basic auth fails exactly on non-Latin-1 credentials; otherwise it is `Basic ` followed by text that decodes to `user:password` |
| Session.DigestAuth | background/fetchAuth.js:43-105 | the set of known origins is unchanged and no other origin's data changes |
| Session.DigestCount | background/fetchAuth.js:43-105 | with a challenge and credentials, the origin's count becomes the next count and the last nonce becomes the challenge's nonce; the value is the Digest Authorization, which fails iff the challenge has no `algorithm` |
| Session.RunCounts | background/fetchAuth.js:75-80 | k Digest authorisations in a row for one origin under one challenge leave its count at k more than it started from: the stored count when the challenge's nonce is the session's last nonce, 0 otherwise; the last nonce becomes the challenge's and other origins are untouched |
| Session.DigestUserName | background/fetchAuth.js:51-55 | the header's `username` is `auth.username`, or the user name stored for the origin when that is empty, hashed with the realm exactly when the challenge says `userhash="true"` |
| Session.DigestEarlyErrors | background/fetchAuth.js:45-61 | with no stored origin, no credentials or no `qop`, the computation throws a TypeError and leaves the state unchanged |
| Session.SameNonceCountsUp | background/fetchAuth.js:75-80 | two computations for one origin in a row count up by one |
| Session.AlternatingOriginsReset | background/fetchAuth.js:75-80 | alternating between two origins with different nonces resets each count to 1, so a `(nonce, nc)` pair repeats |
| Session.UndefinedNonceCountsTwo | background/fetchAuth.js:75-80 | a challenge without a nonce, on a fresh session, counts up to 2, since the undefined nonce equals the undefined last nonce |
| Session.AddAuthCases | background/fetchAuth.js:144-156 | nothing is attached iff the scheme is neither Digest nor Basic; Basic sets `Authorization` to the Basic value; Digest sets it to the Digest value and takes its new state |
| Session.AddAuthKeepsEntry | background/fetchAuth.js:144-156 | adding authentication changes at most the nonce count of the origin's data |
| Session.DigestAttached | background/fetchAuth.js:144-148 | for a stored `Digest` scheme with credentials and `qop`, addAuthentication attaches the Digest value for the next count, or throws exactly when the challenge has no `algorithm` |
| Session.AfterFirst | background/fetchAuth.js:166-195 | one or two requests are sent, the first being the given one; a returned response is the network's answer to the last request |
| Session.FetchExchange | background/fetchAuth.js:162-196 | at most two requests are sent; a returned response is the answer to the last one |
| Session.FetchFirstRequest | background/fetchAuth.js:162-166 | no request goes out iff attaching authentication throws; otherwise the first request carries the attached headers, or the caller's headers when the origin has no scheme |
| Session.NoRetry | background/fetchAuth.js:167-178 | without a challenged 401, or without both user name and password, exactly one request is sent and its answer returned with the state unchanged |
| Session.RetryReplacesEntry | background/fetchAuth.js:178-186 | a retry happens only after a challenged 401 with credentials, and replaces the origin's data with the parsed challenge, user name and a fresh count |
| Session.BasicChallengeRetried | background/fetchAuth.js:167-190 | a `Basic` challenge with credentials is retried once with the Basic Authorization added, and the second answer is returned |
| Session.ChallengeRetriedIff | background/fetchAuth.js:178-190 | after a challenged 401 with truthy credentials the origin's data is replaced by the parsed challenge, the user name and count 1, retried or not; a second request is sent exactly when addAuthentication on that data succeeds and attaches a header, and it carries the headers addAuthentication made and its answer is returned; an error from addAuthentication is returned after the one request |
| Session.DigestChallengeRetried | background/fetchAuth.js:178-190 | a `Digest` challenge offering `qop`, with truthy credentials, is retried once with the Digest value of the new challenge (count 2 under the session's last nonce, else 1) and the second answer is returned when it names an `algorithm`; without one the retry's createDigestAuth throws a TypeError after one request |
| Session.FetchSession.constructor | background/fetchAuth.js:9-11 | a new session has no origin data and no last nonce |
| Session.FetchSession.GetOriginData | background/fetchAuth.js:135-138 | reads the stored data of the origin, if any |
| Session.FetchSession.SetOriginData | background/fetchAuth.js:140-142 | the new state is the old one with the origin's data replaced |
| Session.FetchSession.CreateBasicAuth | background/fetchAuth.js:35-37 | the Basic value of the options' credentials (round trip in `BasicAuthRoundTrip`) |
| Session.FetchSession.CreateDigestAuth | background/fetchAuth.js:43-105 | updates the fields in place to the state `DigestAuth` describes and returns its value |
| Session.FetchSession.AddAuthentication | background/fetchAuth.js:144-156 | updates the session and the options' headers as `AddAuth` describes; the other options are unchanged |
| Session.FetchSession.Fetch | background/fetchAuth.js:162-196 | defaults the headers, sends, and retries once, with the requests, result and new state of `FetchExchange` |
| Session.FetchSession.SendAndAnswer | background/fetchAuth.js:166-195 | the part of `fetch` after the first request, as `AfterFirst` describes |
| Settings.NormalizeBaseUrl | chrome/content/settings.js:7-10 | the normalised URL is non-empty and ends with `/` |
| Settings.ExtraArgsOf | chrome/content/settings.js:6-14 | the preference is of type `char`; its value ends in `/` and is its own trim; it is the trimmed typed text when that ends in `/`, and the trimmed text plus `/` otherwise |
| Settings.NormalizeShape | chrome/content/settings.js:7-10 | the result is the trimmed text when it already ends in `/`, and otherwise the trimmed text plus `/`; blank input gives `/`; no space at either end |
| Settings.NormalizedIsTrimmed | chrome/content/settings.js:7-10 | trimming the result changes nothing |
| Settings.NormalizeFixed | chrome/content/settings.js:7-10 | a trimmed URL ending in `/` is left as it is |
| Settings.NormalizeIdempotent | chrome/content/settings.js:7-10 | normalising twice is normalising once |
| Background.DigitPrefix | background/background.js:53-54 | the digits `parseInt` reads are the longest digit prefix of the text |
| Background.ParseIntPlain | background/background.js:53-54 | `parseInt` reads the decimal rendering of a count, followed by anything but a digit, as that count |
| Background.ParseIntMinus | background/background.js:53-54 | a leading `-` negates the number that follows, and there is none when no digit follows |
| Background.ParseIntNegated | background/background.js:53-54 | `-` followed by a rendered count reads as its negation |
| Background.ParseIntDecimal | background/background.js:53-54 | both signs of a rendered count read back |
| Background.ParseMinusOne | background/background.js:53-54 | the fallback `-1` parses as -1 |
| Background.QuotaValue | background/background.js:53-54 | a missing or empty quota element reports -1, and a reported value is never below -1 |
| Background.QuotaValueOfCount | background/background.js:53-54 | a count is reported as itself |
| Background.QuotaValueOfNegative | background/background.js:53-54 | a negative integer written in decimal is clamped to -1 |
| Background.QuotaValueCases | background/background.js:53-54 | counts are kept, negatives become -1, and text `parseInt` cannot read gives NaN |
| Background.FetchAuth | background/background.js:177-193 | one or two requests, the first being the caller's; a returned response is the answer to the last |
| Background.FetchAuthNoRetry | background/background.js:178-181 | without a 401, without both credentials, or with a challenge header, one request is sent and its answer returned |
| Background.FetchAuthBasicRetry | background/background.js:179-189 | an unchallenged 401 with credentials is retried once with `Authorization` set to `Basic` and text that decodes to `user:password` |
| Background.FetchAuthRequest | background/background.js:177-193 | updates the options' headers in place and returns the requests and the result of `FetchAuth` |
| Background.FileKeyInjective | background/background.js:115-126 | for account ids without `#`, the `account#id` key determines the account and the file id |
| Background.UploadFailure | background/background.js:109-113 | an upload fails iff the status is not 2xx; 507 is a quota error, every other failure an HTTP error carrying its status |
| Background.AbortController.Abort | background/background.js:146 | the controller is aborted |
| Background.CloudFileListeners.constructor | background/background.js:24-25 | both tables start empty |
| Background.CloudFileListeners.BeginUpload | background/background.js:95-96 | a fresh, unaborted controller is registered under the upload id |
| Background.CloudFileListeners.EndUpload | background/background.js:98-120 | the controller is always removed; a rejected fetch or a failing status records nothing; a 2xx records the target URL under `account#id` and returns the public URL and the aborted flag |
| Background.CloudFileListeners.FileDeleted | background/background.js:123-141 | an unknown key sends nothing; a known one sends its URL and forgets it only when the answer is 2xx |
| Background.CloudFileListeners.UploadAborted | background/background.js:143-148 | aborts the controller registered under the id, iff there is one |
| LegacyProvider.Classify | components/nsWebDAV.js:268-311 | a success result keeps the transport status and its HTTP status is 2xx or absent; a failed transport has HTTP status 0 |
| LegacyProvider.ClassifyCases | components/nsWebDAV.js:268-311 | 2xx passes; 401/403 become authErr; 507 becomes uploadWouldExceedQuota; other statuses become uploadErr; an aborted binding becomes uploadCanceled; other transport failures become uploadErr |
| LegacyProvider.UsedQuota | components/nsWebDAV.js:116-118 | a text result is the element's own text |
| LegacyProvider.UsedQuotaCases | components/nsWebDAV.js:116-118 | missing or empty text gives -1; text whose number is below 0 gives -1; other text is kept as it is |
| LegacyProvider.AvailableQuota | components/nsWebDAV.js:120-128 | a text result is either the previous value or the element's text |
| LegacyProvider.AvailableQuotaCases | components/nsWebDAV.js:120-128 | no element gives 0; empty text gives -1; a number above -1 keeps the text; another number gives 0; NaN leaves the previous value |
| LegacyProvider.AccountCheckStatus | components/nsWebDAV.js:181-196 | the check either keeps the status or turns it into NS_ERROR_FAILURE |
| LegacyProvider.AccountCheckCases | components/nsWebDAV.js:181-196 | the account is accepted iff the transport succeeded and the answer is either unread or 2xx whose resource type is `collection`; failures keep their classified status |
| LegacyProvider.Channel.Cancel | components/nsWebDAV.js:95 | the channel records the cancel reason |
| LegacyProvider.WebDavProvider.constructor | components/nsWebDAV.js:13-46 | empty upload table, quota figures at -1, the account's base URL |
| LegacyProvider.WebDavProvider.UrlForFile | components/nsWebDAV.js:83-85 | the URL is the base URL followed by the leaf name |
| LegacyProvider.WebDavProvider.UploadFile | components/nsWebDAV.js:48-81 | offline throws offlineErr and changes nothing; when opening the file stream or the channel fails, the error is swallowed, nothing is registered and the start is not reported; otherwise a fresh channel to the file's URL is registered in the upload table and the start is reported |
| LegacyProvider.WebDavProvider.UploadStopped | components/nsWebDAV.js:64-69 | the upload is removed from the table and the callback gets the classified status, uploadCanceled after a cancel |
| LegacyProvider.WebDavProvider.CancelFileUpload | components/nsWebDAV.js:87-97 | offline throws and cancels nothing; otherwise a running upload to the file's URL is cancelled with NS_BINDING_ABORTED |
| LegacyProvider.WebDavProvider.RefreshUserInfo | components/nsWebDAV.js:99-148 | offline throws; a failure to set up the channel reaches the caller; otherwise a PROPFIND goes to the base URL |
| LegacyProvider.WebDavProvider.UserInfoReceived | components/nsWebDAV.js:105-136 | after a 2xx success both quota figures are normalised from the answer; otherwise neither changes; the classified status is passed on |
| LegacyProvider.WebDavProvider.DeleteFile | components/nsWebDAV.js:150-166 | offline throws; a failure to set up the channel reaches the caller; otherwise a DELETE goes to the file's URL |
| LegacyProvider.WebDavProvider.CreateExistingAccount | components/nsWebDAV.js:171-217 | offline throws; an invalid base URL stops with its error; otherwise a PROPFIND goes to the base URL |

## Left out

- Hash primitives: MD5 and `crypto.subtle.digest` are an uninterpreted parameter. The lemmas
  that read a Digest header back assume hex digests, which contain no backslash.
- Network: `fetch` and the XPCOM channels are a function from the attempt number and the
  request to the response. The asynchronous order of `await`s is not modelled.
- `Math.random().toString(36)`, the input of the cnonce, is a parameter.
- URL parsing: `new URL(url)` and its `origin` and `pathname` are inputs.
- The upload listener's `new URL(baseURL, name)` targets are inputs too: the target URL and
  the public URL.
- `createExistingAccount`'s own `Services.io.newURI` check is an input, as the error it would
  raise or none. For the requests `sendRequest` sets up, whether `newURI`, `newChannelFromURI`
  or `asyncOpen` throws is an input too (`failed` or `sendError`).
- `channel.originalURI.spec` is taken to be the URL the channel was opened with.
- XML and DOM: the text of the quota elements and the first child of `resourcetype` are inputs.
- `Number(text)`, the conversion JavaScript applies when quota text is compared with a number,
  is a parameter.
- Background.CloudFileListeners.EndUpload: the upload listener is split in two, `BeginUpload`
  and `EndUpload`, around the awaited fetch. The answer is an input, so the method does not
  model the fetch. Another listener can run between the two halves.
- Background.CloudFileListeners.FileDeleted: the DELETE answer is a parameter, for the same
  reason.
- Session.BasicAuth: credentials are strings. Inside `auth`, an undefined user name or
  password is not told apart from an empty one. They render differently in `btoa` (as
  `undefined`).
- Session.DigestRequest: the same holds for Digest. An undefined `auth.password` is written
  into A1 as `undefined`, while the model uses the empty string.
- Session.FetchSession.AddAuthentication requires the options to have headers. Only `fetch`
  calls it, after defaulting them.
- The `prompter` hook returns the options unchanged, so it is not modelled. The `stale` check
  that guards it therefore has no effect. `prevFailed` is set but never read.
- Logging (`console.log`, `Log4Moz`) has no effect on the state and is not modelled.
- `createAuthPrompt`, `getInterface`, `sendRequest`'s stream set-up and `init`'s preference
  read are not modelled. The base URL is a constructor argument.
- The storage migration at start-up, `updateQuota`'s request and its `updateAccount` call,
  `detectRestype` and the message listener are not modelled. Only the quota computation of
  `updateQuota` is.
- `chrome/content/management.js` and `content/settings.js` are not part of this model.
- `createNewAccount` only throws NS_ERROR_NOT_IMPLEMENTED and is not modelled.
- Background.ParseInt: integers are unbounded. Precision loss of `parseInt` above 2^53 is not
  modelled.
- The text of a non-2xx answer that `onStreamComplete` decodes for the log is not modelled.
  Reading the HTTP status is an input, absent when the read throws.

=== FILE: background.dfy ===
/** The background script of the WebExtension: its own `fetchAuth` (one Basic retry when a 401
    comes without a challenge), the quota values `updateQuota` reports, and the bookkeeping of
    the upload, delete and abort listeners. */
module Background {
  import opened Wrappers
  import opened Text
  import opened Base64

  // ---------------------------------------------------------------------------
  // parseInt and the quota values

  /** The longest run of decimal digits at the start of `s`. */
  function DigitPrefix(s: string): (d: string)
    ensures |d| <= |s| && d == s[..|d|] && AllDigits(d)
    ensures |d| == |s| || !IsDigit(s[|d|])
  {
    if s != [] && IsDigit(s[0]) then [s[0]] + DigitPrefix(s[1..]) else []
  }

  /** The value of the digit run at the start of `u`; None (NaN) when there is no digit. */
  function LeadingNumber(u: string): Option<nat> {
    var digits := DigitPrefix(u);
    if digits == [] then None else Some(DigitsValue(digits))
  }

  /** `parseInt(s, 10)`, with None for NaN: leading white space is skipped, one sign is read,
      then as many decimal digits as follow; no digit gives NaN. */
  function ParseInt(s: string): Option<int> {
    var t := TrimStart(s);
    if t != [] && t[0] == '-' then
      match LeadingNumber(t[1..])
      case None => None
      case Some(v) => Some(-(v as int))
    else if t != [] && t[0] == '+' then
      match LeadingNumber(t[1..])
      case None => None
      case Some(v) => Some(v)
    else
      match LeadingNumber(t)
      case None => None
      case Some(v) => Some(v)
  }

  /** The digit run of a number written out and followed by a non-digit is that number. */
  lemma {:induction false} DigitPrefixOf(d: string, rest: string)
    requires AllDigits(d) && (rest == [] || !IsDigit(rest[0]))
    ensures DigitPrefix(d + rest) == d
  {
    if d != [] {
      assert (d + rest)[1..] == d[1..] + rest;
      DigitPrefixOf(d[1..], rest);
    } else {
      assert d + rest == rest;
    }
  }

  lemma DigitNotSpace(c: char)
    requires IsDigit(c) || c == '-'
    ensures !IsSpace(c)
  {
  }

  /** The digit run of a number written in decimal and followed by a non-digit is that
      number. */
  lemma LeadingDecimal(n: nat, rest: string)
    requires rest == [] || !IsDigit(rest[0])
    ensures LeadingNumber(Decimal(n) + rest) == Some(n)
  {
    DigitPrefixOf(Decimal(n), rest);
    DecimalRoundTrip(n);
  }

  /** parseInt reads back a natural number written in decimal and ignores whatever follows the
      digits. */
  lemma ParseIntPlain(n: nat, rest: string)
    requires rest == [] || !IsDigit(rest[0])
    ensures ParseInt(Decimal(n) + rest) == Some(n)
  {
    var d := Decimal(n);
    var s := d + rest;
    assert s[0] == d[0];
    DigitNotSpace(d[0]);
    assert TrimStart(s) == s;
    LeadingDecimal(n, rest);
  }

  /** A minus sign is no white space, so parseInt reads it as the sign. */
  lemma ParseIntMinus(u: string)
    ensures ParseInt("-" + u) == match LeadingNumber(u)
                                 case None => None
                                 case Some(v) => Some(-(v as int))
  {
    var m := "-" + u;
    assert m[0] == '-';
    DigitNotSpace('-');
    assert TrimStart(m) == m;
    assert m[1..] == u;
  }

  /** The same number after a minus sign is read back negated. */
  lemma ParseIntNegated(n: nat, rest: string)
    requires rest == [] || !IsDigit(rest[0])
    ensures ParseInt("-" + Decimal(n) + rest) == Some(-(n as int))
  {
    var u := Decimal(n) + rest;
    assert "-" + Decimal(n) + rest == "-" + u;
    ParseIntMinus(u);
    LeadingDecimal(n, rest);
  }

  /** parseInt reads back a natural number written in decimal, with or without a minus sign,
      and ignores whatever follows the digits. */
  lemma ParseIntDecimal(n: nat, rest: string)
    requires rest == [] || !IsDigit(rest[0])
    ensures ParseInt(Decimal(n) + rest) == Some(n)
    ensures ParseInt("-" + Decimal(n) + rest) == Some(-(n as int))
  {
    ParseIntPlain(n, rest);
    ParseIntNegated(n, rest);
  }

  /** `parseInt(-1, 10)`: the number -1 is read as its text "-1". */
  lemma ParseMinusOne()
    ensures ParseInt("-1") == Some(-1)
  {
    ParseIntNegated(1, []);
    assert Decimal(1) == "1";
    assert "-" + Decimal(1) + [] == "-1";
  }

  /** A quota figure as `updateQuota` computes it from the element's text (None when the
      response has no such element): `Math.max(-1, parseInt(text || -1, 10))`, and -1 without
      the element. None stands for NaN, which Math.max passes on. */
  function QuotaValue(element: Option<string>): (r: Option<int>)
    ensures element.None? || element.value == "" ==> r == Some(-1)
    ensures r.Some? ==> r.value >= -1
  {
    ParseMinusOne();
    match element
    case None => Some(-1)
    case Some(text) =>
      match ParseInt(if text != "" then text else "-1")
      case None => None
      case Some(v) => Some(if v < -1 then -1 else v)
  }

  /** A count written in decimal is reported as it is. */
  lemma QuotaValueOfCount(n: nat)
    ensures QuotaValue(Some(Decimal(n))) == Some(n)
  {
    ParseIntPlain(n, []);
    assert Decimal(n) + [] == Decimal(n);
  }

  /** A negative count is reported as -1. */
  lemma QuotaValueOfNegative(n: nat)
    requires n >= 1
    ensures QuotaValue(Some("-" + Decimal(n))) == Some(-1)
  {
    ParseIntNegated(n, []);
    assert "-" + Decimal(n) + [] == "-" + Decimal(n);
  }

  /** A count written in decimal is reported as it is, a negative count as -1, and text with
      no digits after the sign as NaN. */
  lemma QuotaValueCases(n: nat, text: string)
    ensures QuotaValue(Some(Decimal(n))) == Some(n)
    ensures n >= 1 ==> QuotaValue(Some("-" + Decimal(n))) == Some(-1)
    ensures text != "" && ParseInt(text).None? ==> QuotaValue(Some(text)).None?
  {
    QuotaValueOfCount(n);
    if n >= 1 {
      QuotaValueOfNegative(n);
    }
  }

  // ---------------------------------------------------------------------------
  // fetchAuth

  /** The response as far as fetchAuth and the listeners look at it. */
  datatype Response = Response(status: int, wwwAuthenticate: Option<string>)

  /** `response.ok`. */
  predicate IsOk(status: int) {
    200 <= status <= 299
  }

  /** A request as sent: the URL and the `headers` option. */
  datatype Request = Request(url: string, headers: Option<map<string, string>>)

  /** The network: the response to the n-th call (from 0) of this fetchAuth. */
  type Network = (nat, Request) -> Response

  /** What fetchAuth ends with: the response or btoa's error, the requests sent in order, and
      `options.headers` afterwards. */
  datatype Exchange = Exchange(result: Result<Response, JsError>, calls: seq<Request>,
                               headers: Option<map<string, string>>)

  /** `options.username && options.password`. */
  predicate Truthy(x: Option<string>) {
    x.Some? && x.value != ""
  }

  /** fetchAuth: send; on a 401 with truthy credentials and no `WWW-Authenticate` header, create
      `headers` if needed, set a Basic `Authorization` and send once more. */
  function FetchAuth(net: Network, url: string, username: Option<string>, password: Option<string>,
                     headers: Option<map<string, string>>): (r: Exchange)
    ensures 1 <= |r.calls| <= 2 && r.calls[0] == Request(url, headers)
    ensures r.result.Ok? ==> r.result.value == net(|r.calls| - 1, r.calls[|r.calls| - 1])
  {
    var req := Request(url, headers);
    var resp := net(0, req);
    if resp.status != 401 || !Truthy(username) || !Truthy(password) || Truthy(resp.wwwAuthenticate) then
      Exchange(Ok(resp), [req], headers)
    else
      var hs := headers.GetOr(map[]);
      match Btoa(username.value + ":" + password.value)
      case Err(e) => Exchange(Err(e), [req], Some(hs))
      case Ok(t) =>
        var again := Request(url, Some(hs["Authorization" := "Basic " + t]));
        Exchange(Ok(net(1, again)), [req, again], again.headers)
  }

  /** The first response is returned unchanged, after one call, unless it is a 401 and both
      credentials are truthy; a 401 that carries a challenge is returned without a retry too. */
  lemma FetchAuthNoRetry(net: Network, url: string, username: Option<string>, password: Option<string>,
                         headers: Option<map<string, string>>)
    requires var resp := net(0, Request(url, headers));
             resp.status != 401 || !Truthy(username) || !Truthy(password) || Truthy(resp.wwwAuthenticate)
    ensures FetchAuth(net, url, username, password, headers)
            == Exchange(Ok(net(0, Request(url, headers))), [Request(url, headers)], headers)
  {
  }

  /** A 401 without a challenge, with truthy credentials, is retried exactly once, with the
      caller's headers (or new ones) plus `Authorization: Basic base64(username:password)`. */
  lemma FetchAuthBasicRetry(net: Network, url: string, username: Option<string>, password: Option<string>,
                            headers: Option<map<string, string>>)
    requires var resp := net(0, Request(url, headers));
             resp.status == 401 && Truthy(username) && Truthy(password) && !Truthy(resp.wwwAuthenticate)
    requires IsLatin1(username.value + ":" + password.value)
    ensures var r := FetchAuth(net, url, username, password, headers);
            && |r.calls| == 2
            && r.calls[1].headers == Some(headers.GetOr(map[])["Authorization" := "Basic " + Btoa(username.value + ":" + password.value).value])
            && Atob(r.calls[1].headers.value["Authorization"][6..]) == Some(username.value + ":" + password.value)
            && r.result == Ok(net(1, r.calls[1]))
  {
    var cred := username.value + ":" + password.value;
    BtoaRoundTrip(cred);
    var v := "Basic " + Btoa(cred).value;
    assert v[6..] == Btoa(cred).value;
  }

  /** The options object fetchAuth is given; it may create and fill `headers`. */
  class FetchOptions {
    var username: Option<string>
    var password: Option<string>
    var headers: Option<map<string, string>>

    constructor(username: Option<string>, password: Option<string>, headers: Option<map<string, string>>)
      ensures this.username == username && this.password == password && this.headers == headers
    {
      this.username := username;
      this.password := password;
      this.headers := headers;
    }
  }

  /** fetchAuth, updating `options.headers` in place; `calls` lists the requests sent. */
  method FetchAuthRequest(net: Network, url: string, options: FetchOptions)
    returns (r: Result<Response, JsError>, calls: seq<Request>)
    modifies options
    ensures var x := FetchAuth(net, url, old(options.username), old(options.password), old(options.headers));
            r == x.result && calls == x.calls && options.headers == x.headers
    ensures options.username == old(options.username) && options.password == old(options.password)
  {
    var req := Request(url, options.headers);
    var resp := net(0, req);
    calls := [req];
    if resp.status == 401 && Truthy(options.username) && Truthy(options.password) {
      if !Truthy(resp.wwwAuthenticate) {
        options.headers := Some(options.headers.GetOr(map[]));
        var t := Btoa(options.username.value + ":" + options.password.value);
        if t.Err? {
          return Err(t.error), calls;
        }
        options.headers := Some(options.headers.value["Authorization" := "Basic " + t.value]);
        req := Request(url, options.headers);
        resp := net(1, req);
        calls := calls + [req];
      }
    }
    r := Ok(resp);
  }

  // ---------------------------------------------------------------------------
  // The cloudFile listeners

  /** `account + "#" + id`: the key of an uploaded file. */
  function FileKey(account: string, id: nat): string {
    account + "#" + Decimal(id)
  }

  /** Keys of accounts without `#` in their id are told apart: the key determines the account
      and the file id. */
  lemma FileKeyInjective(a1: string, id1: nat, a2: string, id2: nat)
    requires '#' !in a1 && '#' !in a2
    requires FileKey(a1, id1) == FileKey(a2, id2)
    ensures a1 == a2 && id1 == id2
  {
    var k := FileKey(a1, id1);
    assert k[|a1|] == '#' && k[|a2|] == '#';
    assert a1 == k[..|a1|] && a2 == k[..|a2|];
    assert Decimal(id1) == k[|a1| + 1..] == Decimal(id2);
    DecimalInjective(id1, id2);
  }

  /** How an upload fails: a 507 is a DOMException named QuotaExceededError, any other status
      that is not ok an Error, and a fetch that rejects passes its error on. */
  datatype UploadError = QuotaExceededError | HttpError(status: int) | FetchRejected

  /** What a successful upload returns: the public URL and whether the upload was aborted. */
  datatype Uploaded = Uploaded(url: string, aborted: bool)

  /** The error an upload's response status leads to, if any. */
  function UploadFailure(status: int): (e: Option<UploadError>)
    ensures e.None? <==> IsOk(status)
    ensures e == Some(QuotaExceededError) <==> status == 507
    ensures e.Some? && status != 507 ==> e == Some(HttpError(status))
  {
    if status == 507 then Some(QuotaExceededError)
    else if !IsOk(status) then Some(HttpError(status))
    else None
  }

  /** An `AbortController` as the listeners use it: its signal's `aborted` flag. */
  class AbortController {
    var aborted: bool

    constructor()
      ensures !aborted
    {
      aborted := false;
    }

    method Abort()
      modifies this
      ensures aborted
    {
      aborted := true;
    }
  }

  /** The two module-level Maps the listeners share. */
  class CloudFileListeners {
    var abortControllers: map<nat, AbortController>
    var uploadedFiles: map<string, string>

    constructor()
      ensures abortControllers == map[] && uploadedFiles == map[]
    {
      abortControllers := map[];
      uploadedFiles := map[];
    }

    /** onFileUpload up to the request: a new controller is registered under the upload's id. */
    method BeginUpload(id: nat) returns (controller: AbortController)
      modifies this
      ensures fresh(controller) && !controller.aborted
      ensures abortControllers == old(abortControllers)[id := controller]
      ensures uploadedFiles == old(uploadedFiles)
    {
      controller := new AbortController();
      abortControllers := abortControllers[id := controller];
    }

    /** onFileUpload once fetchAuth has answered (None when it rejected): the file is recorded
        under `account#id` only for an ok response, and the controller's entry is removed on
        every path, as the `finally` block does. */
    method EndUpload(account: string, id: nat, controller: AbortController, targetURL: string,
                     publicURL: string, response: Option<int>)
      returns (r: Result<Uploaded, UploadError>)
      modifies this
      ensures abortControllers == old(abortControllers) - {id}
      ensures response.None? ==> r == Err(FetchRejected) && uploadedFiles == old(uploadedFiles)
      ensures response.Some? && UploadFailure(response.value).Some? ==>
                r == Err(UploadFailure(response.value).value) && uploadedFiles == old(uploadedFiles)
      ensures response.Some? && UploadFailure(response.value).None? ==>
                r == Ok(Uploaded(publicURL, controller.aborted))
                && uploadedFiles == old(uploadedFiles)[FileKey(account, id) := targetURL]
    {
      if response.None? {
        r := Err(FetchRejected);
      } else {
        var failure := UploadFailure(response.value);
        if failure.Some? {
          r := Err(failure.value);
        } else {
          uploadedFiles := uploadedFiles[FileKey(account, id) := targetURL];
          r := Ok(Uploaded(publicURL, controller.aborted));
        }
      }
      abortControllers := abortControllers - {id};
    }

    /** onFileDeleted: nothing is sent for a file that was never recorded; otherwise a DELETE
        goes to the recorded URL (`respond` gives fetchAuth's status for it, None when it
        rejects) and the record is dropped only when the response is ok. */
    method FileDeleted(account: string, fileId: nat, respond: string -> Option<int>)
      returns (sent: Option<string>)
      modifies this
      ensures var key := FileKey(account, fileId);
              && (key !in old(uploadedFiles) ==> sent == None && uploadedFiles == old(uploadedFiles))
              && (key in old(uploadedFiles) ==>
                    && sent == Some(old(uploadedFiles)[key])
                    && var status := respond(old(uploadedFiles)[key]);
                       uploadedFiles == if status.Some? && IsOk(status.value) then old(uploadedFiles) - {key}
                                        else old(uploadedFiles))
      ensures abortControllers == old(abortControllers)
    {
      var key := FileKey(account, fileId);
      if key !in uploadedFiles {
        return None;
      }
      sent := Some(uploadedFiles[key]);
      var status := respond(uploadedFiles[key]);
      if status.Some? && IsOk(status.value) {
        uploadedFiles := uploadedFiles - {key};
      }
    }

    /** onFileUploadAbort: `abort()` is called only on a controller registered for the id. */
    method UploadAborted(id: nat) returns (called: bool)
      modifies if id in abortControllers then {abortControllers[id]} else {}
      ensures called <==> id in abortControllers
      ensures called ==> abortControllers[id].aborted
    {
      called := id in abortControllers;
      if called {
        abortControllers[id].Abort();
      }
    }
  }
}

=== FILE: base64.dfy ===
/** `btoa`: the base64 encoding of section 4 of RFC 4648 applied to a string whose characters
    are read as bytes, and the decoding that undoes it. The encoding is taken in two layers:
    bytes to 6-bit values, and 6-bit values to alphabet characters, padded with `=`. */
module Base64 {
  import opened Wrappers

  newtype byte = x: int | 0 <= x < 256

  // ---------------------------------------------------------------------------
  // The alphabet

  /** The 64-character alphabet of section 4 of RFC 4648. */
  function Symbol(v: int): (c: char)
    requires 0 <= v < 64
  {
    if v < 26 then ('A' as int + v) as char
    else if v < 52 then ('a' as int + v - 26) as char
    else if v < 62 then ('0' as int + v - 52) as char
    else if v == 62 then '+'
    else '/'
  }

  predicate IsSymbol(c: char) {
    'A' <= c <= 'Z' || 'a' <= c <= 'z' || '0' <= c <= '9' || c == '+' || c == '/'
  }

  function SymbolValue(c: char): (v: int)
    requires IsSymbol(c)
    ensures 0 <= v < 64
  {
    if 'A' <= c <= 'Z' then c as int - 'A' as int
    else if 'a' <= c <= 'z' then c as int - 'a' as int + 26
    else if '0' <= c <= '9' then c as int - '0' as int + 52
    else if c == '+' then 62
    else 63
  }

  /** Every 6-bit value has a symbol, which is not the padding character, and reads back. */
  lemma SymbolRoundTrip(v: int)
    requires 0 <= v < 64
    ensures IsSymbol(Symbol(v)) && Symbol(v) != '=' && SymbolValue(Symbol(v)) == v
  {
  }

  predicate AllSextets(v: seq<int>) {
    forall i :: 0 <= i < |v| ==> 0 <= v[i] < 64
  }

  /** The symbols of a sequence of 6-bit values. */
  function Symbols(v: seq<int>): (s: string)
    requires AllSextets(v)
    ensures |s| == |v| && forall i :: 0 <= i < |s| ==> s[i] != '='
  {
    if v == [] then []
    else
      SymbolRoundTrip(v[0]);
      [Symbol(v[0])] + Symbols(v[1..])
  }

  /** The 6-bit values of a string of symbols, if every character is one. */
  function Values(s: string): (r: Option<seq<int>>)
    ensures r.Some? ==> |r.value| == |s| && AllSextets(r.value)
  {
    if s == [] then Some([])
    else if !IsSymbol(s[0]) then None
    else
      match Values(s[1..])
      case None => None
      case Some(rest) => Some([SymbolValue(s[0])] + rest)
  }

  /** Reading the symbols back gives the values. */
  lemma {:induction false} ValuesSymbols(v: seq<int>)
    requires AllSextets(v)
    ensures Values(Symbols(v)) == Some(v)
  {
    if v != [] {
      var s := Symbols(v);
      SymbolRoundTrip(v[0]);
      assert s[1..] == Symbols(v[1..]);
      ValuesSymbols(v[1..]);
      assert v == [v[0]] + v[1..];
    }
  }

  // ---------------------------------------------------------------------------
  // Bytes and 6-bit values

  /** The four 6-bit values of three bytes. */
  function Group(b0: byte, b1: byte, b2: byte): (v: seq<int>)
    ensures |v| == 4 && AllSextets(v)
  {
    [b0 as int / 4, b0 as int % 4 * 16 + b1 as int / 16,
     b1 as int % 16 * 4 + b2 as int / 64, b2 as int % 64]
  }

  /** Three bytes give four values; a final single byte gives the first two values of its
      group, a final pair the first three. */
  function Sextets(b: seq<byte>): (v: seq<int>)
    ensures AllSextets(v)
    ensures |v| == |b| / 3 * 4 + (if |b| % 3 == 0 then 0 else |b| % 3 + 1)
  {
    if |b| == 0 then []
    else if |b| == 1 then Group(b[0], 0, 0)[..2]
    else if |b| == 2 then Group(b[0], b[1], 0)[..3]
    else Group(b[0], b[1], b[2]) + Sextets(b[3..])
  }

  /** The first byte of a group, from its first two values. */
  function Octet0(v0: int, v1: int): byte
    requires 0 <= v0 < 64 && 0 <= v1 < 64
  {
    (v0 * 4 + v1 / 16) as byte
  }

  /** The second byte of a group, from its second and third values. */
  function Octet1(v1: int, v2: int): byte
    requires 0 <= v1 < 64 && 0 <= v2 < 64
  {
    (v1 % 16 * 16 + v2 / 4) as byte
  }

  /** The third byte of a group, from its third and fourth values. */
  function Octet2(v2: int, v3: int): byte
    requires 0 <= v2 < 64 && 0 <= v3 < 64
  {
    (v2 % 4 * 64 + v3) as byte
  }

  /** The bytes a sequence of values stands for: four values give three bytes, a final two
      give one and a final three give two; a single left-over value stands for nothing. */
  function Octets(v: seq<int>): Option<seq<byte>>
    requires AllSextets(v)
  {
    if |v| == 0 then Some([])
    else if |v| == 1 then None
    else if |v| == 2 then Some([Octet0(v[0], v[1])])
    else if |v| == 3 then Some([Octet0(v[0], v[1]), Octet1(v[1], v[2])])
    else
      match Octets(v[4..])
      case None => None
      case Some(rest) => Some([Octet0(v[0], v[1]), Octet1(v[1], v[2]), Octet2(v[2], v[3])] + rest)
  }

  lemma DivMod16(a: int, r: int)
    requires 0 <= r < 16 && 0 <= a
    ensures (a * 16 + r) / 16 == a && (a * 16 + r) % 16 == r
  {
  }

  lemma DivMod4(a: int, r: int)
    requires 0 <= r < 4 && 0 <= a
    ensures (a * 4 + r) / 4 == a && (a * 4 + r) % 4 == r
  {
  }

  /** The values of a group give back its bytes. */
  lemma GroupOctets(b0: byte, b1: byte, b2: byte)
    ensures var v := Group(b0, b1, b2);
            Octet0(v[0], v[1]) == b0 && Octet1(v[1], v[2]) == b1 && Octet2(v[2], v[3]) == b2
  {
    DivMod16(b0 as int % 4, b1 as int / 16);
    DivMod4(b1 as int % 16, b2 as int / 64);
  }

  /** One full group, then the rest. */
  lemma OctetsStep(b0: byte, b1: byte, b2: byte, rest: seq<int>)
    requires AllSextets(rest)
    ensures var v := Group(b0, b1, b2) + rest;
            Octets(v) == if Octets(rest).Some? then Some([b0, b1, b2] + Octets(rest).value) else None
  {
    var v := Group(b0, b1, b2) + rest;
    assert v[4..] == rest;
    GroupOctets(b0, b1, b2);
  }

  /** Octets undoes Sextets. */
  lemma {:induction false} OctetsSextets(b: seq<byte>)
    ensures Octets(Sextets(b)) == Some(b)
  {
    if |b| == 1 {
      GroupOctets(b[0], 0, 0);
      assert b == [b[0]];
    } else if |b| == 2 {
      GroupOctets(b[0], b[1], 0);
      assert b == [b[0], b[1]];
    } else if |b| >= 3 {
      OctetsSextets(b[3..]);
      OctetsStep(b[0], b[1], b[2], Sextets(b[3..]));
      assert b == [b[0], b[1], b[2]] + b[3..];
    }
  }

  // ---------------------------------------------------------------------------
  // Characters

  /** The padding that completes the last group to four characters. */
  function Padding(n: nat): string {
    if n % 3 == 1 then "==" else if n % 3 == 2 then "=" else ""
  }

  /** Section 4 of RFC 4648 on a byte sequence. */
  function EncodeBytes(b: seq<byte>): (s: string)
    ensures |s| == 4 * ((|b| + 2) / 3)
  {
    Symbols(Sextets(b)) + Padding(|b|)
  }

  /** The number of `=` that close `s`, at most two. */
  function PadCount(s: string): (n: nat)
    ensures n <= 2 && n <= |s|
  {
    if |s| >= 1 && s[|s| - 1] == '=' then
      (if |s| >= 2 && s[|s| - 2] == '=' then 2 else 1)
    else 0
  }

  /** The inverse of EncodeBytes: the length is a multiple of four, at most two `=` close the
      text and every other character is a symbol. */
  function DecodeBytes(s: string): Option<seq<byte>> {
    if |s| % 4 != 0 then None
    else
      match Values(s[..|s| - PadCount(s)])
      case None => None
      case Some(v) => Octets(v)
  }

  /** Symbols followed by padding split back into the two. */
  lemma PadCountSplit(sym: string, pad: string)
    requires pad == "" || pad == "=" || pad == "=="
    requires forall i :: 0 <= i < |sym| ==> sym[i] != '='
    requires pad != "" ==> |sym| >= 2
    ensures PadCount(sym + pad) == |pad| && (sym + pad)[..|sym|] == sym
  {
    var s := sym + pad;
    if pad == "" {
      assert s == sym;
      if |s| >= 1 {
        assert s[|s| - 1] == sym[|sym| - 1];
      }
    } else if pad == "=" {
      assert s[|s| - 2] == sym[|sym| - 1];
    }
  }

  /** Decoding text whose padding is counted and whose symbols read back. */
  lemma DecodeSplit(s: string, sym: string, v: seq<int>, k: nat)
    requires |s| == 4 * k && |sym| <= |s| && PadCount(s) == |s| - |sym| && s[..|sym|] == sym
    requires Values(sym) == Some(v)
    ensures DecodeBytes(s) == Octets(v)
  {
    assert |s| % 4 == 0 by {
      assert |s| == 4 * k;
    }
    assert s[..|s| - PadCount(s)] == sym;
  }

  /** Decoding undoes encoding. */
  lemma DecodeEncode(b: seq<byte>)
    ensures DecodeBytes(EncodeBytes(b)) == Some(b)
  {
    var v := Sextets(b);
    var sym := Symbols(v);
    var s := EncodeBytes(b);
    ValuesSymbols(v);
    PadCountSplit(sym, Padding(|b|));
    assert s == sym + Padding(|b|);
    DecodeSplit(s, sym, v, (|b| + 2) / 3);
    OctetsSextets(b);
  }

  // ---------------------------------------------------------------------------
  // btoa

  /** The characters of `s` read as bytes, when every one is at most U+00FF. */
  predicate IsLatin1(s: string) {
    forall i :: 0 <= i < |s| ==> s[i] as int < 256
  }

  function Latin1Bytes(s: string): (b: seq<byte>)
    requires IsLatin1(s)
    ensures |b| == |s| && forall i :: 0 <= i < |s| ==> b[i] as int == s[i] as int
  {
    seq(|s|, i requires 0 <= i < |s| => s[i] as int as byte)
  }

  function BytesText(b: seq<byte>): (s: string)
    ensures |s| == |b| && forall i :: 0 <= i < |b| ==> s[i] as int == b[i] as int
  {
    seq(|b|, i requires 0 <= i < |b| => b[i] as int as char)
  }

  /** `btoa(s)`: throws InvalidCharacterError when a character is above U+00FF. */
  function Btoa(s: string): Result<string, JsError> {
    if IsLatin1(s) then Ok(EncodeBytes(Latin1Bytes(s))) else Err(InvalidCharacterError)
  }

  /** `atob(t)`, on padded input. */
  function Atob(t: string): Option<string> {
    match DecodeBytes(t)
    case None => None
    case Some(b) => Some(BytesText(b))
  }

  /** `btoa` fails exactly on the strings that are not Latin-1, and `atob` undoes it. */
  lemma BtoaRoundTrip(s: string)
    ensures Btoa(s).Err? <==> exists i :: 0 <= i < |s| && s[i] as int >= 256
    ensures Btoa(s).Ok? ==> Atob(Btoa(s).value) == Some(s)
  {
    if IsLatin1(s) {
      DecodeEncode(Latin1Bytes(s));
      assert BytesText(Latin1Bytes(s)) == s;
    }
  }
}

=== FILE: challenge.dfy ===
/** `FetchSession.parseWWWAuth`: reads a `WWW-Authenticate` header value into a scheme and a
    table of auth-params (section 2.1 of RFC 7235), with the exact character classes, matching
    rules and input consumption of the two regular expressions the code uses. */
module Challenge {
  import opened Wrappers
  import opened Text

  // ---------------------------------------------------------------------------
  // Character classes, as the regular expressions spell them. Each class literal has a range
  // that ends at the letter `x` where `\x7E` was meant (`\x21-x` for the scheme, `\x3E-x` for
  // the name, `\x2D-x` for the unquoted value), so `{` and `}` are missing and nothing above
  // `z` but `|` and `~` is included.

  /** The scheme class: 0x21 to 0x7A, `|` and `~`. */
  predicate IsSchemeChar(c: char) {
    '!' <= c <= 'z' || c == '|' || c == '~'
  }

  /** The parameter-name class: the scheme class without `=` (it keeps `,` and `"`). */
  predicate IsNameChar(c: char) {
    IsSchemeChar(c) && c != '='
  }

  /** The unquoted-value class: the scheme class without `,` (it keeps `=` and `"`). */
  predicate IsTokenChar(c: char) {
    IsSchemeChar(c) && c != ','
  }

  /** The classes the regular expressions repeat: three bracket classes and `\s`. */
  datatype CharClass = SchemeClass | NameClass | TokenClass | SpaceClass

  predicate InClass(k: CharClass, c: char) {
    match k
    case SchemeClass => IsSchemeChar(c)
    case NameClass => IsNameChar(c)
    case TokenClass => IsTokenChar(c)
    case SpaceClass => IsSpace(c)
  }

  /** The end of the longest run of characters of class `k` from position `i`: what a greedy
      `[...]*` reaches. */
  function RunEnd(s: string, i: nat, k: CharClass): (e: nat)
    requires i <= |s|
    ensures i <= e <= |s|
    decreases |s| - i
  {
    if i < |s| && InClass(k, s[i]) then RunEnd(s, i + 1, k) else i
  }

  /** The run RunEnd finds is made of characters of the class and cannot be extended. */
  lemma {:induction false} RunEndMaximal(s: string, i: nat, k: CharClass)
    requires i <= |s|
    ensures forall j :: i <= j < RunEnd(s, i, k) ==> InClass(k, s[j])
    ensures RunEnd(s, i, k) == |s| || !InClass(k, s[RunEnd(s, i, k)])
    decreases |s| - i
  {
    if i < |s| && InClass(k, s[i]) {
      RunEndMaximal(s, i + 1, k);
    }
  }

  /** A run is determined by where it starts: any maximal run ends where RunEnd says. */
  lemma {:induction false} RunEndUnique(s: string, i: nat, e: nat, k: CharClass)
    requires i <= e <= |s|
    requires forall j :: i <= j < e ==> InClass(k, s[j])
    requires e == |s| || !InClass(k, s[e])
    ensures RunEnd(s, i, k) == e
    decreases e - i
  {
    if i < e {
      RunEndUnique(s, i + 1, e, k);
    }
  }

  // ---------------------------------------------------------------------------
  // RE_SCHEME = /^([scheme class]+)\s+/

  datatype SchemeMatch = SchemeMatch(scheme: string, length: nat)

  /** The match of RE_SCHEME at the start of `s`. The class holds no white space, so the
      greedy run can only succeed at its full length, and `\s+` takes all the white space. */
  function MatchScheme(s: string): (r: Option<SchemeMatch>)
    ensures r.Some? ==> 1 <= |r.value.scheme| < r.value.length <= |s|
                        && r.value.scheme == s[..|r.value.scheme|]
  {
    var e := RunEnd(s, 0, SchemeClass);
    if e == 0 || e == |s| || !IsSpace(s[e]) then None
    else Some(SchemeMatch(s[..e], RunEnd(s, e, SpaceClass)))
  }

  /** `s` opens with a run of `e` scheme characters followed by white space. */
  predicate SchemeAt(s: string, e: nat) {
    1 <= e < |s| && (forall j :: 0 <= j < e ==> IsSchemeChar(s[j])) && IsSpace(s[e])
  }

  /** RE_SCHEME matches exactly when the input opens with scheme characters followed by white
      space; otherwise parseWWWAuth returns a null scheme and no parameters. */
  lemma MatchSchemeExactly(s: string)
    ensures MatchScheme(s).Some? <==> exists e :: SchemeAt(s, e)
    ensures MatchScheme(s).None? ==> Parse(s) == AuthHeader(None, map[])
  {
    var e := RunEnd(s, 0, SchemeClass);
    RunEndMaximal(s, 0, SchemeClass);
    if MatchScheme(s).Some? {
      assert SchemeAt(s, e);
    }
    if exists e' :: SchemeAt(s, e') {
      var e': nat :| SchemeAt(s, e');
      if IsSchemeChar(s[e']) {
        SchemeCharNotSpace(s[e']);
      }
      RunEndUnique(s, 0, e', SchemeClass);
    }
  }

  /** Input made of scheme characters alone, such as a bare `Basic`, has no scheme: RE_SCHEME
      needs white space after it. */
  lemma NoSpaceNoScheme(s: string)
    requires forall j :: 0 <= j < |s| ==> IsSchemeChar(s[j])
    ensures Parse(s) == AuthHeader(None, map[])
  {
    RunEndUnique(s, 0, |s|, SchemeClass);
  }

  /** A bare `Basic` yields no scheme. */
  lemma BareBasic()
    ensures Parse("Basic") == AuthHeader(None, map[])
  {
    NoSpaceNoScheme("Basic");
  }

  // ---------------------------------------------------------------------------
  // RE_AUTH_PARAM =
  //   /(,?([name class]+)\s*=\s*("((?:[^"\\]|\\.)*)"|[token class]+))/   (not anchored)
  // Groups: 2 is the name, 3 the whole value, 4 the text between the quotes.

  /** The quoted-string body `(?:[^"\\]|\\.)*`: characters other than `"` and `\`, or `\`
      followed by any character but a line terminator. */
  predicate QuotedText(t: string)
    decreases |t|
  {
    t == []
    || (t[0] != '"' && t[0] != '\\' && QuotedText(t[1..]))
    || (|t| >= 2 && t[0] == '\\' && !IsLineTerminator(t[1]) && QuotedText(t[2..]))
  }

  /** A match of RE_AUTH_PARAM, by position: the match runs from `start` to `end`, the name
      (group 2) from `nameStart` to `nameEnd`, and the value (group 3) from `valueStart` to
      `end`; a quoted value carries its text (group 4) between its first and last character. */
  datatype ParamMatch = ParamMatch(start: nat, end: nat, nameStart: nat, nameEnd: nat,
                                   valueStart: nat, quoted: bool)

  /** The positions of a match lie in order inside `s`. */
  predicate Fits(s: string, m: ParamMatch) {
    m.start <= m.nameStart < m.nameEnd < m.valueStart < m.end <= |s|
    && (m.quoted ==> m.valueStart + 2 <= m.end)
  }

  /** Group 2. */
  function Name(s: string, m: ParamMatch): string
    requires Fits(s, m)
  {
    s[m.nameStart..m.nameEnd]
  }

  /** `param[4] || param[3]`: the text between the quotes, unless it is empty or the value was
      not quoted; an empty quoted value is therefore stored as the two characters `""`. */
  function StoredValue(s: string, m: ParamMatch): string
    requires Fits(s, m)
  {
    if m.quoted && m.valueStart + 2 < m.end then s[m.valueStart + 1..m.end - 1]
    else s[m.valueStart..m.end]
  }

  /** Where the name starts in a match at `i`: `,?` takes the comma when a name character
      follows it; otherwise the comma is itself a name character. */
  function NameStart(s: string, i: nat): (p: nat)
    requires i <= |s|
    ensures i <= p <= |s| && p <= i + 1
  {
    if i + 1 < |s| && s[i] == ',' && IsNameChar(s[i + 1]) then i + 1 else i
  }

  /** Where the matcher is inside one attempt: in the name, in the white space before `=`,
      in the white space after it, inside a quoted value or inside a bare token. */
  datatype Phase = InName | BeforeEquals | AfterEquals | InQuoted | InToken

  /** The positions recorded so far: where the attempt started, where the name starts and
      ends, and where the value starts. */
  datatype Marks = Marks(start: nat, nameStart: nat, nameEnd: nat, valueStart: nat)

  /** Phases are only ever left for later ones (a failed quoted value falls back to a token). */
  function Rank(ph: Phase): nat {
    match ph
    case InName => 4
    case BeforeEquals => 3
    case AfterEquals => 2
    case InQuoted => 1
    case InToken => 0
  }

  /** What is known of the marks when the matcher is at `j` in phase `ph`. */
  predicate Inside(s: string, ph: Phase, m: Marks, j: nat) {
    && m.start <= m.nameStart <= j <= |s|
    && (ph != InName ==> m.nameStart < m.nameEnd <= j)
    && (ph in {AfterEquals, InQuoted, InToken} ==> m.nameEnd < j)
    && (ph in {InQuoted, InToken} ==> m.nameEnd < m.valueStart <= j)
    && (ph == InQuoted ==> m.valueStart < j)
  }

  /** The matcher, one character at a time. Every run in the pattern must be maximal (the
      character after the name is white space or `=`, neither a name character; the value
      cannot start with white space), the body of a quoted string has a single way to match,
      and the quoted alternative is tried before the token one, so this is the match the
      backtracking engine finds. */
  function Scan(s: string, ph: Phase, m: Marks, j: nat): (r: Option<ParamMatch>)
    requires Inside(s, ph, m, j)
    ensures r.Some? ==> r.value.start == m.start && r.value.nameStart == m.nameStart && Fits(s, r.value)
    decreases Rank(ph), |s| - j
  {
    match ph
    case InName =>
      if j < |s| && IsNameChar(s[j]) then Scan(s, InName, m, j + 1)
      else if j == m.nameStart then None
      else Scan(s, BeforeEquals, m.(nameEnd := j), j)
    case BeforeEquals =>
      if j < |s| && IsSpace(s[j]) then Scan(s, BeforeEquals, m, j + 1)
      else if j < |s| && s[j] == '=' then Scan(s, AfterEquals, m, j + 1)
      else None
    case AfterEquals =>
      if j < |s| && IsSpace(s[j]) then Scan(s, AfterEquals, m, j + 1)
      else if j < |s| && s[j] == '"' then Scan(s, InQuoted, m.(valueStart := j), j + 1)
      else Scan(s, InToken, m.(valueStart := j), j)
    case InQuoted =>
      if j == |s| then Scan(s, InToken, m, m.valueStart)
      else if s[j] == '"' then Some(ParamMatch(m.start, j + 1, m.nameStart, m.nameEnd, m.valueStart, true))
      else if s[j] != '\\' then Scan(s, InQuoted, m, j + 1)
      else if j + 1 < |s| && !IsLineTerminator(s[j + 1]) then Scan(s, InQuoted, m, j + 2)
      else Scan(s, InToken, m, m.valueStart)
    case InToken =>
      if j < |s| && IsTokenChar(s[j]) then Scan(s, InToken, m, j + 1)
      else if j == m.valueStart then None
      else Some(ParamMatch(m.start, j, m.nameStart, m.nameEnd, m.valueStart, false))
  }

  /** The match of RE_AUTH_PARAM starting exactly at `i`. */
  function MatchAt(s: string, i: nat): (r: Option<ParamMatch>)
    requires i <= |s|
    ensures r.Some? ==> r.value.start == i && Fits(s, r.value)
  {
    var p := NameStart(s, i);
    Scan(s, InName, Marks(i, p, p, p), p)
  }

  /** `input.match(RE_AUTH_PARAM)`: the leftmost match at or after `i`. */
  function FindParam(s: string, i: nat): (r: Option<ParamMatch>)
    requires i <= |s|
    ensures r.Some? ==> i <= r.value.start && Fits(s, r.value)
    decreases |s| - i
  {
    var m := MatchAt(s, i);
    if m.Some? then m
    else if i == |s| then None
    else FindParam(s, i + 1)
  }

  // ---------------------------------------------------------------------------
  // The parse

  /** The result of parseWWWAuth: `scheme` is null when no scheme could be matched. */
  datatype AuthHeader = AuthHeader(scheme: Option<string>, params: map<string, string>)

  /** `params[name] = value` on the plain object the parameters are collected in: the name
      `__proto__` reaches the prototype's setter, which ignores a string, so the table stays as
      it was; any other name becomes an own property. */
  function SetParam(params: map<string, string>, name: string, value: string): map<string, string> {
    if name == "__proto__" then params else params[name := value]
  }

  /** The loop of parseWWWAuth from a given remaining input: each match removes as many
      characters from the FRONT of the input as the matched text is long, wherever the match
      started, and a later name overwrites an earlier one (`__proto__` excepted). */
  function ParamsFrom(input: string, params: map<string, string>): map<string, string>
    decreases |input|
  {
    match FindParam(input, 0)
    case None => params
    case Some(m) =>
      ParamsFrom(input[m.end - m.start..], SetParam(params, Name(input, m), StoredValue(input, m)))
  }

  /** One turn of the parameter loop. */
  lemma ParamsFromStep(input: string, params: map<string, string>, m: ParamMatch)
    requires FindParam(input, 0) == Some(m)
    ensures ParamsFrom(input, params)
            == ParamsFrom(input[m.end - m.start..], SetParam(params, Name(input, m), StoredValue(input, m)))
  {
  }

  /** What parseWWWAuth returns for `input`. */
  function Parse(input: string): AuthHeader {
    match MatchScheme(input)
    case None => AuthHeader(None, map[])
    case Some(sm) => AuthHeader(Some(sm.scheme), ParamsFrom(input[sm.length..], map[]))
  }

  /** parseWWWAuth, step by step: consume the scheme, then consume parameters while one
      matches. */
  method ParseWWWAuth(header: string) returns (r: AuthHeader)
    ensures r == Parse(header)
  {
    var input := header;
    var scheme: Option<string> := None;
    var params: map<string, string> := map[];

    var schemeres := MatchScheme(input);
    if schemeres.Some? {
      input := input[schemeres.value.length..];
      scheme := Some(schemeres.value.scheme);
      ghost var target := ParamsFrom(input, map[]);

      var param := FindParam(input, 0);
      while param.Some?
        invariant param == FindParam(input, 0)
        invariant ParamsFrom(input, params) == target
        decreases |input|
      {
        var m := param.value;
        ParamsFromStep(input, params, m);
        params := SetParam(params, Name(input, m), StoredValue(input, m));
        input := input[m.end - m.start..];
        param := FindParam(input, 0);
      }
    }
    r := AuthHeader(scheme, params);
  }

  // ---------------------------------------------------------------------------
  // What the parser makes of a header written the way a sender writes one: the scheme, one
  // space, then name=value pairs separated by bare commas.

  /** An auth-param value as written: a quoted string (given without its quotes, escapes
      included) or a bare token. */
  datatype ParamValue = Quoted(text: string) | Token(text: string)

  datatype Param = Param(name: string, value: ParamValue)

  function RenderValue(v: ParamValue): string {
    match v
    case Quoted(t) => ['"'] + t + ['"']
    case Token(t) => t
  }

  function RenderParam(p: Param): string {
    p.name + "=" + RenderValue(p.value)
  }

  /** The parameters joined by commas; `lead` goes before the first (`""` or `","`). */
  function Join(ps: seq<Param>, lead: string): string {
    if ps == [] then "" else lead + RenderParam(ps[0]) + Join(ps[1..], ",")
  }

  /** A parameter the two regular expressions can read back: a name of name characters
      without a comma, and a quoted-string body or a token that does not open with a quote. */
  predicate WellFormed(p: Param) {
    && |p.name| >= 1
    && (forall i :: 0 <= i < |p.name| ==> IsNameChar(p.name[i]) && p.name[i] != ',')
    && WellFormedValue(p.value)
  }

  predicate WellFormedValue(v: ParamValue) {
    match v
    case Quoted(t) => QuotedText(t)
    case Token(t) => |t| >= 1 && t[0] != '"' && forall i :: 0 <= i < |t| ==> IsTokenChar(t[i])
  }

  /** The value the parser stores for a written value (`param[4] || param[3]`). */
  function Stored(v: ParamValue): string {
    match v
    case Quoted(t) => if t == [] then ['"', '"'] else t
    case Token(t) => t
  }

  /** The table after storing each parameter in turn: a later name overwrites an earlier one,
      and `__proto__` is not stored. */
  function StoreAll(acc: map<string, string>, ps: seq<Param>): map<string, string>
    decreases |ps|
  {
    if ps == [] then acc else StoreAll(SetParam(acc, ps[0].name, Stored(ps[0].value)), ps[1..])
  }

  /** Storing parameters none of which is named `name` leaves `name` as it was. */
  lemma {:induction false} StoreAllKeeps(acc: map<string, string>, ps: seq<Param>, name: string)
    requires forall j :: 0 <= j < |ps| ==> ps[j].name != name
    ensures name in StoreAll(acc, ps) <==> name in acc
    ensures name in acc ==> StoreAll(acc, ps)[name] == acc[name]
    decreases |ps|
  {
    if ps != [] {
      StoreAllKeeps(SetParam(acc, ps[0].name, Stored(ps[0].value)), ps[1..], name);
    }
  }

  /** A parameter whose name is not repeated after it keeps its value in the table. */
  lemma {:induction false} StoreAllFind(acc: map<string, string>, ps: seq<Param>, k: nat)
    requires k < |ps| && ps[k].name != "__proto__"
    requires forall j :: k < j < |ps| ==> ps[j].name != ps[k].name
    ensures ps[k].name in StoreAll(acc, ps) && StoreAll(acc, ps)[ps[k].name] == Stored(ps[k].value)
    decreases |ps|
  {
    var acc' := SetParam(acc, ps[0].name, Stored(ps[0].value));
    if k == 0 {
      StoreAllKeeps(acc', ps[1..], ps[0].name);
    } else {
      StoreAllFind(acc', ps[1..], k - 1);
    }
  }

  /** None of the three bracket classes holds white space. */
  lemma SchemeCharNotSpace(c: char)
    requires IsSchemeChar(c)
    ensures !IsSpace(c)
  {
  }

  /** A slice of a slice is a slice. */
  lemma SliceOfSlice(s: string, a: nat, b: nat, i: nat, j: nat)
    requires a <= b <= |s| && i <= j <= b - a
    ensures s[a..b][i..j] == s[a + i..a + j]
  {
    assert forall k :: 0 <= k < j - i ==> s[a..b][i..j][k] == s[a + i + k];
  }

  /** The matcher steps over name characters. */
  lemma {:induction false} SkipName(s: string, m: Marks, j: nat, k: nat)
    requires Inside(s, InName, m, j) && j <= k <= |s|
    requires forall x :: j <= x < k ==> IsNameChar(s[x])
    ensures Scan(s, InName, m, j) == Scan(s, InName, m, k)
    decreases k - j
  {
    if j < k {
      SkipName(s, m, j + 1, k);
    }
  }

  /** The matcher steps over token characters. */
  lemma {:induction false} SkipToken(s: string, m: Marks, j: nat, k: nat)
    requires Inside(s, InToken, m, j) && j <= k <= |s|
    requires forall x :: j <= x < k ==> IsTokenChar(s[x])
    ensures Scan(s, InToken, m, j) == Scan(s, InToken, m, k)
    decreases k - j
  {
    if j < k {
      SkipToken(s, m, j + 1, k);
    }
  }

  /** The matcher steps over a quoted-string body. */
  lemma {:induction false} SkipQuoted(s: string, m: Marks, j: nat, t: string)
    requires Inside(s, InQuoted, m, j) && j + |t| <= |s| && s[j..j + |t|] == t
    requires QuotedText(t)
    ensures Scan(s, InQuoted, m, j) == Scan(s, InQuoted, m, j + |t|)
    decreases |t|
  {
    if t != [] {
      assert s[j] == t[0];
      if t[0] == '\\' {
        assert s[j + 1] == t[1];
        assert s[j + 2..j + |t|] == t[2..];
        SkipQuoted(s, m, j + 2, t[2..]);
      } else {
        assert s[j + 1..j + |t|] == t[1..];
        SkipQuoted(s, m, j + 1, t[1..]);
      }
    }
  }

  /** A quoted value, right after `=`, is matched up to its closing quote. */
  lemma MatchQuotedAt(s: string, m: Marks, q: nat, t: string)
    requires Inside(s, AfterEquals, m, q) && QuotedText(t)
    requires q + |t| + 2 <= |s| && s[q] == '"' && s[q + 1..q + 1 + |t|] == t && s[q + 1 + |t|] == '"'
    ensures Scan(s, AfterEquals, m, q) == Some(ParamMatch(m.start, q + |t| + 2, m.nameStart, m.nameEnd, q, true))
  {
    SkipQuoted(s, m.(valueStart := q), q + 1, t);
  }

  /** A bare token, right after `=`, is matched up to the end of `s` or the next comma. */
  lemma MatchTokenAt(s: string, m: Marks, q: nat, t: string)
    requires Inside(s, AfterEquals, m, q)
    requires |t| >= 1 && t[0] != '"' && forall i :: 0 <= i < |t| ==> IsTokenChar(t[i])
    requires q + |t| <= |s| && s[q..q + |t|] == t && (q + |t| == |s| || s[q + |t|] == ',')
    ensures Scan(s, AfterEquals, m, q) == Some(ParamMatch(m.start, q + |t|, m.nameStart, m.nameEnd, q, false))
  {
    assert s[q] == t[0];
    SchemeCharNotSpace(t[0]);
    forall x | q <= x < q + |t|
      ensures IsTokenChar(s[x])
    {
      assert s[x] == t[x - q];
    }
    SkipToken(s, m.(valueStart := q), q, q + |t|);
  }

  /** A written value, right after `=`, is matched up to its end and no further. */
  lemma MatchValueAt(s: string, m: Marks, q: nat, v: ParamValue)
    requires Inside(s, AfterEquals, m, q) && WellFormedValue(v)
    requires q + |RenderValue(v)| <= |s| && s[q..q + |RenderValue(v)|] == RenderValue(v)
    requires q + |RenderValue(v)| == |s| || s[q + |RenderValue(v)|] == ','
    ensures Scan(s, AfterEquals, m, q)
            == Some(ParamMatch(m.start, q + |RenderValue(v)|, m.nameStart, m.nameEnd, q, v.Quoted?))
  {
    var w := RenderValue(v);
    match v
    case Quoted(t) =>
      SliceOfSlice(s, q, q + |w|, 1, |w| - 1);
      assert w[1..|w| - 1] == t;
      assert s[q] == w[0];
      assert s[q + 1 + |t|] == w[|w| - 1];
      MatchQuotedAt(s, m, q, t);
    case Token(t) =>
      MatchTokenAt(s, m, q, t);
  }

  /** A written name followed by `=` takes the matcher to the value. */
  lemma MatchNameAt(s: string, n: nat, name: string)
    requires n <= 1 && n + |name| < |s| && (n == 1 ==> s[0] == ',')
    requires |name| >= 1 && forall i :: 0 <= i < |name| ==> IsNameChar(name[i]) && name[i] != ','
    requires s[n..n + |name|] == name && s[n + |name|] == '='
    ensures MatchAt(s, 0) == Scan(s, AfterEquals, Marks(0, n, n + |name|, n), n + |name| + 1)
  {
    var e := n + |name|;
    forall k | n <= k < e
      ensures IsNameChar(s[k])
    {
      assert s[k] == name[k - n];
    }
    assert s[n] == name[0];
    assert NameStart(s, 0) == n;
    SkipName(s, Marks(0, n, n, n), n, e);
  }

  /** Parameter `p` is written in `s` from position `n`, directly after a comma when `n` is 1,
      and is followed by the end of `s` or by a comma. */
  predicate WrittenAt(s: string, n: nat, p: Param) {
    var e := n + |p.name|;
    var w := RenderValue(p.value);
    n <= 1 && (n == 1 ==> 1 <= |s| && s[0] == ',')
    && e + 1 + |w| <= |s| && s[n..e] == p.name && s[e] == '=' && s[e + 1..e + 1 + |w|] == w
    && (e + 1 + |w| == |s| || s[e + 1 + |w|] == ',')
  }

  /** The match of a written parameter. */
  function WrittenMatch(n: nat, p: Param): ParamMatch {
    var e := n + |p.name|;
    ParamMatch(0, e + 1 + |RenderValue(p.value)|, n, e, e + 1, p.value.Quoted?)
  }

  /** A written parameter is matched right at the start. */
  lemma MatchWritten(s: string, n: nat, p: Param)
    requires WellFormed(p) && WrittenAt(s, n, p)
    ensures MatchAt(s, 0) == Some(WrittenMatch(n, p))
  {
    var e := n + |p.name|;
    MatchNameAt(s, n, p.name);
    MatchValueAt(s, Marks(0, n, e, n), e + 1, p.value);
  }

  /** The text between the quotes of a quoted value written at `q`. */
  lemma QuotedInside(s: string, q: nat, t: string)
    requires q + |t| + 2 <= |s| && s[q..q + |t| + 2] == ['"'] + t + ['"']
    ensures s[q + 1..q + |t| + 1] == t
  {
    var w := ['"'] + t + ['"'];
    SliceOfSlice(s, q, q + |w|, 1, |w| - 1);
    assert w[1..|w| - 1] == t;
  }

  /** The match of a written parameter gives back its name, and its value as `Stored` says. */
  lemma StoredWritten(s: string, n: nat, p: Param)
    requires WellFormed(p) && WrittenAt(s, n, p)
    ensures Fits(s, WrittenMatch(n, p)) && Name(s, WrittenMatch(n, p)) == p.name
    ensures StoredValue(s, WrittenMatch(n, p)) == Stored(p.value)
  {
    var e := n + |p.name|;
    var w := RenderValue(p.value);
    var m := WrittenMatch(n, p);
    assert s[e + 1..e + 1 + |w|] == w;
    match p.value
    case Quoted(t) =>
      if t != [] {
        QuotedInside(s, e + 1, t);
        assert StoredValue(s, m) == s[e + 2..e + |w|];
      } else {
        assert StoredValue(s, m) == s[e + 1..e + 1 + |w|];
      }
    case Token(t) =>
      assert StoredValue(s, m) == s[e + 1..e + 1 + |w|];
  }

  /** The loop reads a written parameter and goes on after it. */
  lemma ParamsFromWritten(s: string, n: nat, p: Param, acc: map<string, string>)
    requires WellFormed(p) && WrittenAt(s, n, p)
    ensures WrittenMatch(n, p).end <= |s|
    ensures ParamsFrom(s, acc) == ParamsFrom(s[WrittenMatch(n, p).end..], SetParam(acc, p.name, Stored(p.value)))
  {
    var m := WrittenMatch(n, p);
    MatchWritten(s, n, p);
    assert FindParam(s, 0) == Some(m);
    StoredWritten(s, n, p);
    ParamsFromStep(s, acc, m);
    assert s[m.end - m.start..] == s[m.end..];
  }

  /** How a joined list lays out its first parameter. */
  lemma JoinWritten(ps: seq<Param>, lead: string)
    requires lead == [] || lead == [',']
    requires ps != [] && |ps[0].name| >= 1
    ensures WrittenAt(Join(ps, lead), |lead|, ps[0])
    ensures Join(ps, lead)[|lead| + |ps[0].name| + 1 + |RenderValue(ps[0].value)|..] == Join(ps[1..], ",")
  {
    var rest := Join(ps[1..], ",");
    if rest != [] {
      assert rest[0] == ',';
    }
    Layout(lead, ps[0].name, RenderValue(ps[0].value), rest);
  }

  /** Where the pieces of `lead + name + "=" + w + rest` lie. */
  lemma Layout(lead: string, name: string, w: string, rest: string)
    ensures var s := lead + name + "=" + w + rest;
            var e := |lead| + |name|;
            && |s| == e + 1 + |w| + |rest|
            && s[|lead|..e] == name && s[e] == '=' && s[e + 1..e + 1 + |w|] == w
            && s[e + 1 + |w|..] == rest
            && (lead != [] ==> s[0] == lead[0])
            && (rest != [] ==> s[e + 1 + |w|] == rest[0])
  {
    var s := lead + name + "=" + w + rest;
    var e := |lead| + |name|;
    assert s == lead + (name + ("=" + (w + rest)));
    assert s[|lead|..] == name + ("=" + (w + rest));
    assert s[e..] == "=" + (w + rest);
    assert s[e + 1..] == w + rest;
    assert s[e + 1 + |w|..] == rest;
  }

  /** The loop reads the first parameter of a joined list and goes on with the others. */
  lemma ParamsFromJoinStep(ps: seq<Param>, lead: string, acc: map<string, string>)
    requires lead == [] || lead == [',']
    requires ps != [] && WellFormed(ps[0])
    ensures ParamsFrom(Join(ps, lead), acc) == ParamsFrom(Join(ps[1..], ","), SetParam(acc, ps[0].name, Stored(ps[0].value)))
  {
    JoinWritten(ps, lead);
    ParamsFromWritten(Join(ps, lead), |lead|, ps[0], acc);
  }

  /** The parameter loop reads a joined list back in order. */
  lemma {:induction false} ParamsFromJoin(ps: seq<Param>, lead: string, acc: map<string, string>)
    requires lead == [] || lead == [',']
    requires forall i :: 0 <= i < |ps| ==> WellFormed(ps[i])
    ensures ParamsFrom(Join(ps, lead), acc) == StoreAll(acc, ps)
  {
    if ps == [] {
      assert FindParam([], 0) == None;
    } else {
      var acc' := SetParam(acc, ps[0].name, Stored(ps[0].value));
      ParamsFromJoinStep(ps, lead, acc);
      ParamsFromJoin(ps[1..], ",", acc');
      assert StoreAll(acc, ps) == StoreAll(acc', ps[1..]);
    }
  }

  /** A scheme followed by one space and text that does not open with white space. */
  lemma SchemeWritten(s: string, scheme: string)
    requires |scheme| >= 1 && forall i :: 0 <= i < |scheme| ==> IsSchemeChar(scheme[i])
    requires |scheme| < |s| && s[..|scheme|] == scheme && s[|scheme|] == ' '
    requires |scheme| + 1 == |s| || !IsSpace(s[|scheme| + 1])
    ensures MatchScheme(s) == Some(SchemeMatch(scheme, |scheme| + 1))
  {
    var k := |scheme|;
    forall j | 0 <= j < k
      ensures InClass(SchemeClass, s[j])
    {
      assert s[j] == scheme[j];
    }
    RunEndUnique(s, 0, k, SchemeClass);
    RunEndUnique(s, k, k + 1, SpaceClass);
  }

  /** A header written as the scheme, one space and comma-separated well-formed parameters
      parses back to that scheme and to the parameters, stored in order. */
  lemma ParseJoined(scheme: string, ps: seq<Param>)
    requires |scheme| >= 1 && forall i :: 0 <= i < |scheme| ==> IsSchemeChar(scheme[i])
    requires forall i :: 0 <= i < |ps| ==> WellFormed(ps[i])
    ensures Parse(scheme + " " + Join(ps, "")) == AuthHeader(Some(scheme), StoreAll(map[], ps))
  {
    var rest := Join(ps, "");
    var s := scheme + " " + rest;
    var k := |scheme|;
    if rest != [] {
      assert s[k + 1] == ps[0].name[0];
      SchemeCharNotSpace(s[k + 1]);
    }
    assert s[..k] == scheme;
    SchemeWritten(s, scheme);
    assert s[k + 1..] == rest;
    ParamsFromJoin(ps, "", map[]);
  }

  /** A `__proto__` parameter is matched and consumed but not stored: `Basic __proto__=x`
      gives the scheme and an empty table. */
  lemma ProtoNotStored()
    ensures Parse("Basic" + " " + Join([Param("__proto__", Token("x"))], ""))
            == AuthHeader(Some("Basic"), map[])
  {
    var ps := [Param("__proto__", Token("x"))];
    ParseJoined("Basic", ps);
    assert StoreAll(map[], ps) == StoreAll(map[], []);
  }

  // ---------------------------------------------------------------------------
  // The shifted consumption on an example: `Basic a=1, b=2, cde=3` yields a fourth
  // parameter `de=3`, because the matches of `b=2` and `cde=3` start after a comma and a space
  // but remove their own length from the front of the input.

  /** One turn of the parameter loop, with its pieces given. */
  lemma LoopTurn(s: string, m: ParamMatch, rest: string, name: string, value: string,
                 params: map<string, string>)
    requires FindParam(s, 0) == Some(m)
    requires rest == s[m.end - m.start..] && name == Name(s, m) && value == StoredValue(s, m)
    requires name != "__proto__"
    ensures ParamsFrom(s, params) == ParamsFrom(rest, params[name := value])
  {
    ParamsFromStep(s, params, m);
  }

  /** First turn: `a=1` is matched at the start and three characters are removed. */
  lemma FirstTurn()
    ensures var s := "a=1, b=2, cde=3"; var m := ParamMatch(0, 3, 0, 1, 2, false);
            && FindParam(s, 0) == Some(m)
            && s[3..] == ", b=2, cde=3" && Name(s, m) == "a" && StoredValue(s, m) == "1"
  {
    var s := "a=1, b=2, cde=3";
    var m := Marks(0, 0, 1, 2);
    var r := Some(ParamMatch(0, 3, 0, 1, 2, false));
    assert NameStart(s, 0) == 0;
    assert Scan(s, InToken, m, 3) == r;
    assert Scan(s, InToken, m, 2) == r;
    assert Scan(s, AfterEquals, m, 2) == r;
    assert Scan(s, BeforeEquals, m, 1) == r;
    assert Scan(s, InName, Marks(0, 0, 0, 0), 1) == r;
    assert s[3..] == ", b=2, cde=3" && s[0..1] == "a" && s[2..3] == "1";
  }

  /** At 0, the comma is taken as the name, then white space and a letter follow; at 1 the
      attempt starts on white space. */
  lemma SecondTurnMisses()
    ensures MatchAt(", b=2, cde=3", 0) == None && MatchAt(", b=2, cde=3", 1) == None
  {
    var s := ", b=2, cde=3";
    var m := Marks(0, 0, 0, 0);
    assert !IsNameChar(s[1]);
    assert NameStart(s, 0) == 0;
    assert Scan(s, BeforeEquals, m.(nameEnd := 1), 2) == None;
    assert Scan(s, BeforeEquals, m.(nameEnd := 1), 1) == None;
    assert Scan(s, InName, m, 1) == None;
    assert NameStart(s, 1) == 1;
  }

  lemma SecondTurnMatch()
    ensures MatchAt(", b=2, cde=3", 2) == Some(ParamMatch(2, 5, 2, 3, 4, false))
  {
    var s := ", b=2, cde=3";
    var m := Marks(2, 2, 3, 4);
    var r := Some(ParamMatch(2, 5, 2, 3, 4, false));
    assert NameStart(s, 2) == 2;
    assert Scan(s, InToken, m, 5) == r;
    assert Scan(s, InToken, m, 4) == r;
    assert Scan(s, AfterEquals, m, 4) == r;
    assert Scan(s, BeforeEquals, m, 3) == r;
    assert Scan(s, InName, Marks(2, 2, 2, 2), 3) == r;
  }

  /** Second turn: `b=2` is found at 2 and three characters are removed, which leaves `=2`
      at the front. */
  lemma SecondTurn()
    ensures var s := ", b=2, cde=3"; var m := ParamMatch(2, 5, 2, 3, 4, false);
            && FindParam(s, 0) == Some(m)
            && s[3..] == "=2, cde=3" && Name(s, m) == "b" && StoredValue(s, m) == "2"
  {
    var s := ", b=2, cde=3";
    SecondTurnMisses();
    SecondTurnMatch();
    assert FindParam(s, 1) == MatchAt(s, 2);
    assert s[3..] == "=2, cde=3" && s[2..3] == "b" && s[4..5] == "2";
  }

  /** At 0 the attempt starts on `=`, at 3 on white space. */
  lemma ThirdTurnMissesEnds()
    ensures MatchAt("=2, cde=3", 0) == None && MatchAt("=2, cde=3", 3) == None
  {
    var s := "=2, cde=3";
    assert NameStart(s, 0) == 0;
    assert NameStart(s, 3) == 3;
  }

  /** At 1 the name is `2,`, then white space and a letter follow. */
  lemma ThirdTurnMissesOne()
    ensures MatchAt("=2, cde=3", 1) == None
  {
    var s := "=2, cde=3";
    var m := Marks(1, 1, 1, 1);
    assert NameStart(s, 1) == 1;
    assert Scan(s, BeforeEquals, m.(nameEnd := 3), 4) == None;
    assert Scan(s, BeforeEquals, m.(nameEnd := 3), 3) == None;
    assert Scan(s, InName, m, 3) == None;
    assert Scan(s, InName, m, 2) == None;
  }

  /** At 2 the name is the comma alone, then white space and a letter follow. */
  lemma ThirdTurnMissesTwo()
    ensures MatchAt("=2, cde=3", 2) == None
  {
    var s := "=2, cde=3";
    var m := Marks(2, 2, 2, 2);
    assert !IsNameChar(s[3]);
    assert NameStart(s, 2) == 2;
    assert Scan(s, BeforeEquals, m.(nameEnd := 3), 4) == None;
    assert Scan(s, BeforeEquals, m.(nameEnd := 3), 3) == None;
    assert Scan(s, InName, m, 3) == None;
  }

  lemma ThirdTurnMatch()
    ensures MatchAt("=2, cde=3", 4) == Some(ParamMatch(4, 9, 4, 7, 8, false))
  {
    var s := "=2, cde=3";
    var m := Marks(4, 4, 7, 8);
    var r := Some(ParamMatch(4, 9, 4, 7, 8, false));
    assert NameStart(s, 4) == 4;
    assert Scan(s, InToken, m, 9) == r;
    assert Scan(s, InToken, m, 8) == r;
    assert Scan(s, AfterEquals, m, 8) == r;
    assert Scan(s, BeforeEquals, m, 7) == r;
    assert Scan(s, InName, Marks(4, 4, 4, 4), 7) == r;
    assert Scan(s, InName, Marks(4, 4, 4, 4), 6) == r;
    assert Scan(s, InName, Marks(4, 4, 4, 4), 5) == r;
  }

  /** The leftmost match in `=2, cde=3` starts at 4. */
  lemma ThirdTurnFind()
    ensures FindParam("=2, cde=3", 0) == Some(ParamMatch(4, 9, 4, 7, 8, false))
  {
    var s := "=2, cde=3";
    var r := Some(ParamMatch(4, 9, 4, 7, 8, false));
    ThirdTurnMissesEnds();
    ThirdTurnMissesOne();
    ThirdTurnMissesTwo();
    ThirdTurnMatch();
    assert FindParam(s, 4) == r;
    assert FindParam(s, 3) == r;
    assert FindParam(s, 2) == r;
    assert FindParam(s, 1) == r;
  }

  /** Third turn: `cde=3` is found at 4 and five characters are removed, which leaves `de=3`. */
  lemma ThirdTurn()
    ensures var s := "=2, cde=3"; var m := ParamMatch(4, 9, 4, 7, 8, false);
            && FindParam(s, 0) == Some(m)
            && s[5..] == "de=3" && Name(s, m) == "cde" && StoredValue(s, m) == "3"
  {
    var s := "=2, cde=3";
    ThirdTurnFind();
    assert s[5..] == "de=3" && s[4..7] == "cde" && s[8..9] == "3";
  }

  /** Fourth turn: `de=3` is matched at the start and nothing is left. */
  lemma FourthTurn()
    ensures var s := "de=3"; var m := ParamMatch(0, 4, 0, 2, 3, false);
            && FindParam(s, 0) == Some(m)
            && s[4..] == "" && Name(s, m) == "de" && StoredValue(s, m) == "3"
  {
    var s := "de=3";
    var m := Marks(0, 0, 2, 3);
    var r := Some(ParamMatch(0, 4, 0, 2, 3, false));
    assert NameStart(s, 0) == 0;
    assert Scan(s, InToken, m, 4) == r;
    assert Scan(s, InToken, m, 3) == r;
    assert Scan(s, AfterEquals, m, 3) == r;
    assert Scan(s, BeforeEquals, m, 2) == r;
    assert Scan(s, InName, Marks(0, 0, 0, 0), 2) == r;
    assert Scan(s, InName, Marks(0, 0, 0, 0), 1) == r;
    assert s[4..] == "" && s[0..2] == "de" && s[3..4] == "3";
  }

  /** `Basic a=1, b=2, cde=3` gives the three parameters written and a fourth, `de`, read from
      the tail of `cde=3`. */
  lemma ShiftedConsumption()
    ensures Parse("Basic a=1, b=2, cde=3")
            == AuthHeader(Some("Basic"), map["a" := "1", "b" := "2", "cde" := "3", "de" := "3"])
  {
    var s := "Basic a=1, b=2, cde=3";
    assert s[..5] == "Basic";
    SchemeWritten(s, "Basic");
    assert s[6..] == "a=1, b=2, cde=3";
    FirstTurn();
    LoopTurn("a=1, b=2, cde=3", ParamMatch(0, 3, 0, 1, 2, false), ", b=2, cde=3", "a", "1", map[]);
    SecondTurn();
    LoopTurn(", b=2, cde=3", ParamMatch(2, 5, 2, 3, 4, false), "=2, cde=3", "b", "2", map["a" := "1"]);
    ThirdTurn();
    LoopTurn("=2, cde=3", ParamMatch(4, 9, 4, 7, 8, false), "de=3", "cde", "3",
             map["a" := "1", "b" := "2"]);
    FourthTurn();
    LoopTurn("de=3", ParamMatch(0, 4, 0, 2, 3, false), "", "de", "3",
             map["a" := "1", "b" := "2", "cde" := "3"]);
    assert FindParam("", 0) == None;
  }
}

=== FILE: digest.dfy ===
/** `FetchSession.hash`, `quote` and the calculation of `createDigestAuth`: the Authorization
    value for Digest access authentication (RFC 2069 without qop, section 3.4 of RFC 7616 with
    it), from the challenge the origin last sent. The hash primitives are a parameter. */
module Digest {
  import opened Wrappers
  import opened Text
  import opened Challenge

  // ---------------------------------------------------------------------------
  // Hash dispatch

  /** The primitives `hash` can reach: `md5`, and `crypto.subtle.digest` for the SHA family. */
  datatype HashAlg = MD5 | SHA1 | SHA256 | SHA384 | SHA512

  /** The hex digest of a primitive over a text, left uninterpreted. */
  type Primitive = (HashAlg, string) -> string

  /** The `switch` in `hash`: the four SHA names go to the digest function and every other name,
      "MD5" included, falls to `md5`. */
  function HashAlgOf(name: string): (a: HashAlg)
    ensures a == SHA1 <==> name == "SHA-1"
    ensures a == SHA256 <==> name == "SHA-256"
    ensures a == SHA384 <==> name == "SHA-384"
    ensures a == SHA512 <==> name == "SHA-512"
  {
    match name
    case "SHA-1" => SHA1
    case "SHA-256" => SHA256
    case "SHA-384" => SHA384
    case "SHA-512" => SHA512
    case _ => MD5
  }

  /** The algorithm name each primitive is selected by. */
  function AlgName(a: HashAlg): string {
    match a
    case MD5 => "MD5"
    case SHA1 => "SHA-1"
    case SHA256 => "SHA-256"
    case SHA384 => "SHA-384"
    case SHA512 => "SHA-512"
  }

  /** `hash(algorithm, data)`. */
  function Hash(h: Primitive, name: string, data: string): string {
    h(HashAlgOf(name), data)
  }

  /** Each primitive is selected by its own name, and a name outside the five selects MD5. */
  lemma HashDispatch(a: HashAlg, name: string)
    ensures HashAlgOf(AlgName(a)) == a
    ensures name !in {"SHA-1", "SHA-256", "SHA-384", "SHA-512"} ==> HashAlgOf(name) == MD5
  {
  }

  // ---------------------------------------------------------------------------
  // quote

  /** `.replace(/"/g, '\\"')`: a backslash before every double quote. */
  function Escape(s: string): (r: string)
    ensures |r| >= |s|
  {
    if s == [] then []
    else (if s[0] == '"' then ['\\', '"'] else [s[0]]) + Escape(s[1..])
  }

  /** The text a quoted-string body stands for: a backslash quotes the character after it. */
  function Unescape(t: string): string {
    if t == [] then []
    else if t[0] == '\\' && |t| >= 2 then [t[1]] + Unescape(t[2..])
    else [t[0]] + Unescape(t[1..])
  }

  predicate NoBackslash(s: string) {
    forall i :: 0 <= i < |s| ==> s[i] != '\\'
  }

  /** The text `quote` puts between the double quotes: `str || ""`, escaped. */
  function QuoteText(x: Option<string>): string {
    Escape(Or(x, ""))
  }

  /** `quote(str)`: `str || ""`, escaped, between double quotes. */
  function Quote(x: Option<string>): (r: string)
    ensures r == RenderValue(Quoted(QuoteText(x)))
  {
    "\"" + Escape(Or(x, "")) + "\""
  }

  /** Text without backslashes escapes to a quoted-string body that reads back as the text. */
  lemma {:induction false} EscapeRoundTrip(s: string)
    requires NoBackslash(s)
    ensures QuotedText(Escape(s)) && Unescape(Escape(s)) == s
  {
    if s != [] {
      EscapeRoundTrip(s[1..]);
      var e := Escape(s);
      if s[0] == '"' {
        assert e[2..] == Escape(s[1..]);
      } else {
        assert e[1..] == Escape(s[1..]);
      }
    }
  }

  /** `quote` leaves a backslash alone, so a value ending in one is closed by an escaped quote
      and no longer reads as a quoted string. */
  lemma QuoteTrailingBackslash()
    ensures Quote(Some("a\\")) == "\"a\\\""
    ensures !QuotedText(Escape("a\\"))
  {
    assert Escape("a\\") == "a" + Escape("\\");
    assert Escape("\\") == "\\" + Escape("");
    assert !QuotedText("\\");
  }

  // ---------------------------------------------------------------------------
  // The algorithm

  /** `(challenge.algorithm || "MD5").replace(/-sess/i, "")`: the primitive's name. */
  function ResolvedAlgorithm(alg: Option<string>): string {
    RemoveFirstCI(Or(alg, "MD5"), "-sess")
  }

  /** `challenge.algorithm.toLowerCase().endsWith("-sess")`. */
  predicate IsSess(alg: string) {
    EndsWith(Lower(alg), "-sess")
  }

  /** The first occurrence IndexOfCI reports is the one with none before it. */
  lemma FirstOccurrence(s: string, pat: string, n: nat)
    requires n <= |s| && OccursAtCI(s, pat, n)
    requires forall i :: 0 <= i < n ==> !OccursAtCI(s, pat, i)
    ensures IndexOfCI(s, pat, 0) == Some(n)
  {
  }

  /** An occurrence that lies inside a prefix is an occurrence in the prefix. */
  lemma OccursInPrefix(name: string, tail: string, pat: string, i: nat)
    requires i + |pat| <= |name|
    ensures OccursAtCI(name + tail, pat, i) <==> OccursAtCI(name, pat, i)
  {
    assert (name + tail)[i..i + |pat|] == name[i..i + |pat|];
  }

  /** No occurrence of `-sess` straddles the end of a name it is appended to: the pattern's
      only `-` is its first character. */
  lemma NoStraddle(name: string, i: nat)
    requires |name| - 5 < i < |name|
    ensures !OccursAtCI(name + "-sess", "-sess", i)
  {
    var s := name + "-sess";
    var k := |name| - i;
    if i + 5 <= |s| {
      assert s[i..i + 5][k] == s[|name|] == '-';
      assert Lower(s[i..i + 5])[k] == '-';
      assert Lower("-sess")[k] == LowerChar("-sess"[k]) != '-';
    }
  }

  /** The lower-cased suffix. */
  lemma LowerSess(name: string)
    ensures OccursAtCI(name + "-sess", "-sess", |name|)
    ensures EndsWith(Lower(name + "-sess"), "-sess")
  {
    var s := name + "-sess";
    var n := |name|;
    assert s[n..n + 5] == "-sess";
    assert Lower("-sess") == "-sess";
    assert Lower(s)[n..] == Lower("-sess");
  }

  /** Appending `-sess` to a name that holds no `-sess` gives a session variant whose primitive
      is the name. */
  lemma SessStripped(name: string)
    requires IndexOfCI(name, "-sess", 0).None?
    ensures ResolvedAlgorithm(Some(name + "-sess")) == name
    ensures IsSess(name + "-sess")
  {
    var s := name + "-sess";
    var n := |name|;
    LowerSess(name);
    forall i | 0 <= i < n
      ensures !OccursAtCI(s, "-sess", i)
    {
      if i + 5 <= n {
        OccursInPrefix(name, "-sess", "-sess", i);
      } else {
        NoStraddle(name, i);
      }
    }
    FirstOccurrence(s, "-sess", n);
    assert s[..n] + s[n + 5..] == name;
  }

  /** No `-sess` starts where the `-` is not followed by an `s` or `S`. */
  lemma NoSessAt(name: string, i: nat)
    requires i + 5 <= |name| && !(name[i] == '-' && LowerChar(name[i + 1]) == 's')
    ensures !OccursAtCI(name, "-sess", i)
  {
    var w := name[i..i + 5];
    assert w[0] == name[i] && w[1] == name[i + 1];
    assert Lower("-sess")[0] == '-' && Lower("-sess")[1] == 's';
    assert Lower(w)[0] == LowerChar(w[0]) && Lower(w)[1] == LowerChar(w[1]);
  }

  /** A name in which no `-` is followed by an `s` or `S` holds no `-sess`. */
  lemma NoSessIn(name: string)
    requires forall i :: 0 <= i < |name| - 1 ==> !(name[i] == '-' && LowerChar(name[i + 1]) == 's')
    ensures IndexOfCI(name, "-sess", 0).None?
  {
    forall i | 0 <= i <= |name|
      ensures !OccursAtCI(name, "-sess", i)
    {
      if i + 5 <= |name| {
        NoSessAt(name, i);
      }
    }
  }

  /** With no algorithm, or an empty one, MD5 is used. */
  lemma AlgorithmDefault()
    ensures ResolvedAlgorithm(None) == "MD5" && ResolvedAlgorithm(Some("")) == "MD5"
  {
    NoSessIn("MD5");
  }

  /** SHA-256-sess is hashed with SHA-256. */
  lemma SessAlgorithmExample()
    ensures HashAlgOf(ResolvedAlgorithm(Some("SHA-256" + "-sess"))) == SHA256
  {
    NoSessIn("SHA-256");
    SessStripped("SHA-256");
  }

  /** SHA-512-256 of RFC 7616 is no name the dispatch knows, so it is hashed with MD5. */
  lemma UnknownAlgorithmExample()
    ensures HashAlgOf(ResolvedAlgorithm(Some("SHA-512-256"))) == MD5
  {
    var name := "SHA-512-256";
    NoSessIn(name);
    assert ResolvedAlgorithm(Some(name)) == name;
  }

  // ---------------------------------------------------------------------------
  // qop

  /** The first comma at or after `i`, or the end of `s`. */
  function CommaIndex(s: string, i: nat): (k: nat)
    requires i <= |s|
    ensures i <= k <= |s| && (k < |s| ==> s[k] == ',')
    ensures forall j :: i <= j < k ==> s[j] != ','
    decreases |s| - i
  {
    if i == |s| || s[i] == ',' then i else CommaIndex(s, i + 1)
  }

  predicate NoComma(s: string) {
    forall j :: 0 <= j < |s| ==> s[j] != ','
  }

  /** `s.split` on the pattern `,\s*`: the pieces between commas, each comma taking the white
      space after it. */
  function SplitQop(s: string): (r: seq<string>)
    ensures |r| >= 1 && forall k :: 0 <= k < |r| ==> NoComma(r[k])
    decreases |s|
  {
    var k := CommaIndex(s, 0);
    if k == |s| then [s]
    else [s[..k]] + SplitQop(s[RunEnd(s, k + 1, SpaceClass)..])
  }

  /** The pieces joined by `", "`, the way a server lists the qop values it offers. */
  function JoinList(ps: seq<string>): string
    requires |ps| >= 1
  {
    if |ps| == 1 then ps[0] else ps[0] + ", " + JoinList(ps[1..])
  }

  /** A list piece that `split` can give back: no comma, and no white space to open it. */
  predicate ListPiece(p: string) {
    NoComma(p) && (p == [] || !IsSpace(p[0]))
  }

  /** Splitting a list joined by `", "` gives the list back. */
  lemma {:induction false} SplitJoin(ps: seq<string>)
    requires |ps| >= 1 && forall k :: 0 <= k < |ps| ==> ListPiece(ps[k])
    ensures SplitQop(JoinList(ps)) == ps
  {
    if |ps| == 1 {
      assert CommaIndex(ps[0], 0) == |ps[0]|;
    } else {
      var rest := JoinList(ps[1..]);
      var s := ps[0] + ", " + rest;
      var n := |ps[0]|;
      assert s[n] == ',' && s[n + 1] == ' ';
      forall j | 0 <= j < n
        ensures s[j] != ','
      {
        assert s[j] == ps[0][j];
      }
      CommaIndexAt(s, n);
      JoinListFirst(ps[1..]);
      if rest != [] {
        assert s[n + 2] == rest[0];
      }
      RunEndUnique(s, n + 1, n + 2, SpaceClass);
      assert s[..n] == ps[0];
      assert s[n + 2..] == rest;
      SplitJoin(ps[1..]);
    }
  }

  /** The comma CommaIndex finds when there is no earlier one. */
  lemma CommaIndexAt(s: string, n: nat)
    requires n < |s| && s[n] == ',' && forall j :: 0 <= j < n ==> s[j] != ','
    ensures CommaIndex(s, 0) == n
  {
  }

  /** A joined list does not open with white space. */
  lemma JoinListFirst(ps: seq<string>)
    requires |ps| >= 1 && forall k :: 0 <= k < |ps| ==> ListPiece(ps[k])
    ensures JoinList(ps) == [] || !IsSpace(JoinList(ps)[0])
  {
    if |ps| > 1 && ps[0] == [] {
      assert JoinList(ps)[0] == ',';
    } else if |ps| > 1 {
      assert JoinList(ps)[0] == ps[0][0];
    }
  }

  /** The qop precedence: `auth-int` when offered, else `auth` when offered, else none. */
  function SelectQop(offered: seq<string>): (q: Option<string>)
    ensures q == Some("auth-int") <==> "auth-int" in offered
    ensures q == Some("auth") <==> "auth-int" !in offered && "auth" in offered
    ensures q.None? <==> "auth-int" !in offered && "auth" !in offered
  {
    if "auth-int" in offered then Some("auth-int")
    else if "auth" in offered then Some("auth")
    else None
  }

  /** A list a server writes selects by the values it offers. */
  lemma QopOfList(ps: seq<string>)
    requires |ps| >= 1 && forall k :: 0 <= k < |ps| ==> ListPiece(ps[k])
    ensures SelectQop(SplitQop(JoinList(ps))) == SelectQop(ps)
  {
    SplitJoin(ps);
  }

  /** The lists servers usually send. */
  lemma QopExamples()
    ensures SelectQop(SplitQop("auth, auth-int")) == Some("auth-int")
    ensures SelectQop(SplitQop("auth")) == Some("auth")
  {
    var both := ["auth", "auth-int"];
    assert ListPiece(both[0]) && ListPiece(both[1]);
    SplitJoin(both);
    assert JoinList(both) == "auth, auth-int";
    SplitJoin(["auth"]);
  }

  // ---------------------------------------------------------------------------
  // nc

  /** The nonce count after a request: one more when the challenge's nonce equals the session's
      last nonce (two undefined nonces are equal), else 1. */
  function NextNc(nonce: Option<string>, lastNonce: Option<string>, nc: nat): nat {
    if nonce == lastNonce then nc + 1 else 1
  }

  /** `nc.toString().padStart(8, "0")`: decimal, not the hexadecimal RFC 7616 asks for. */
  function NcPad(nc: nat): (r: string)
    ensures |r| >= 8 && AllDigits(r)
  {
    var d := Decimal(nc);
    var r := PadStart(d, 8, '0');
    LeadingZerosValue(|r| - |d|, d);
    r
  }

  /** The padded count reads back as the count, and is exactly eight digits below 10^8. */
  lemma NcPadRoundTrip(nc: nat)
    ensures DigitsValue(NcPad(nc)) == nc
    ensures |NcPad(nc)| == 8 <==> nc < Pow10(8)
  {
    var d := Decimal(nc);
    LeadingZerosValue(|NcPad(nc)| - |d|, d);
    DecimalRoundTrip(nc);
    DecimalLength(nc, 8);
  }

  // ---------------------------------------------------------------------------
  // The calculation

  /** What createDigestAuth reads besides the challenge: the request method and body (after
      their defaults), the URL's path, the user (`auth.username || originData.username`), the
      password and the random text the cnonce is hashed from. */
  datatype DigestInput = DigestInput(httpMethod: string, body: string, path: string, user: string,
                                     password: string, seed: string)

  /** The values createDigestAuth works out before it renders the header. */
  datatype Computed = Computed(cnonce: string, user: string, qop: Option<string>, ha1: string,
                               ha2: string, ncpad: string, response: string)

  /** `KD(s, d)`: the hash of the secret and the data joined by a colon. */
  function KD(h: Primitive, alg: string, secret: string, data: string): string {
    Hash(h, alg, secret + ":" + data)
  }

  /** The primitive's name. */
  function Alg(ch: map<string, string>): string {
    ResolvedAlgorithm(Get(ch, "algorithm"))
  }

  /** `cnonce`: the hash of the random text. */
  function Cnonce(h: Primitive, ch: map<string, string>, inp: DigestInput): string {
    Hash(h, Alg(ch), inp.seed)
  }

  /** The user the header names: hashed with the realm when the challenge says `userhash="true"`. */
  function UserOf(h: Primitive, ch: map<string, string>, inp: DigestInput): string {
    if Get(ch, "userhash") == Some("true") then Hash(h, Alg(ch), inp.user + ":" + Str(Get(ch, "realm")))
    else inp.user
  }

  /** The qop chosen from the challenge's list. */
  function QopOf(ch: map<string, string>): Option<string>
    requires "qop" in ch
  {
    SelectQop(SplitQop(ch["qop"]))
  }

  /** H(A1), re-hashed with the nonce and the cnonce for a `-sess` algorithm. */
  function Ha1Of(h: Primitive, ch: map<string, string>, inp: DigestInput): string {
    var ha1 := Hash(h, Alg(ch), UserOf(h, ch, inp) + ":" + Str(Get(ch, "realm")) + ":" + inp.password);
    if "algorithm" in ch && IsSess(ch["algorithm"]) then
      Hash(h, Alg(ch), ha1 + ":" + Str(Get(ch, "nonce")) + ":" + Cnonce(h, ch, inp))
    else ha1
  }

  /** H(A2): the method and the path, and the hash of the body with `auth-int`. */
  function Ha2Of(h: Primitive, ch: map<string, string>, inp: DigestInput): string
    requires "qop" in ch
  {
    var a2 := if QopOf(ch) == Some("auth-int") then inp.httpMethod + ":" + inp.path + ":" + Hash(h, Alg(ch), inp.body)
              else inp.httpMethod + ":" + inp.path;
    Hash(h, Alg(ch), a2)
  }

  /** The response: RFC 2069 style without qop, RFC 7616 style with it. */
  function ResponseOf(h: Primitive, ch: map<string, string>, inp: DigestInput, nc: nat): string
    requires "qop" in ch
  {
    var nonce := Str(Get(ch, "nonce"));
    var qop := QopOf(ch);
    if qop.None? then KD(h, Alg(ch), Ha1Of(h, ch, inp), nonce + ":" + Ha2Of(h, ch, inp))
    else KD(h, Alg(ch), Ha1Of(h, ch, inp),
            nonce + ":" + NcPad(nc) + ":" + Cnonce(h, ch, inp) + ":" + qop.value + ":" + Ha2Of(h, ch, inp))
  }

  /** The calculation, once `qop` is known to be present. */
  function Compute(h: Primitive, ch: map<string, string>, inp: DigestInput, nc: nat): Computed
    requires "qop" in ch
  {
    Computed(Cnonce(h, ch, inp), UserOf(h, ch, inp), QopOf(ch), Ha1Of(h, ch, inp), Ha2Of(h, ch, inp),
             NcPad(nc), ResponseOf(h, ch, inp, nc))
  }

  /** The header's values as the template writes them: the text inside the quotes for the
      quoted ones, the bare text for `qop`, `nc`, `userhash` and `algorithm`. */
  datatype Header = Header(response: string, username: string, realm: string, uri: string,
                           qop: string, cnonce: string, nc: string, userhash: string,
                           opaqueField: string, algorithm: string, nonce: string)

  /** What the template puts in each field. */
  function HeaderOf(ch: map<string, string>, inp: DigestInput, c: Computed): Header
    requires "algorithm" in ch
  {
    Header(QuoteText(Some(c.response)), QuoteText(Some(c.user)), QuoteText(Get(ch, "realm")),
           QuoteText(Some(inp.path)), if c.qop.Some? then c.qop.value else "null",
           QuoteText(Some(c.cnonce)), c.ncpad, Or(Get(ch, "userhash"), "false"),
           QuoteText(Get(ch, "opaque")), ch["algorithm"], QuoteText(Get(ch, "nonce")))
  }

  /** A challenge without `realm` or `nonce` gets an empty quoted value in the header: `quote`
      writes an undefined value as the empty string. */
  lemma MissingFieldsQuotedEmpty(ch: map<string, string>, inp: DigestInput, c: Computed)
    requires "algorithm" in ch
    ensures "realm" !in ch ==> HeaderOf(ch, inp, c).realm == ""
    ensures "nonce" !in ch ==> HeaderOf(ch, inp, c).nonce == ""
  {
  }

  /** The header's fields in the order the template lists them. */
  function Fields(hd: Header): (ps: seq<Param>)
    ensures |ps| == 11
  {
    [ Param("response", Quoted(hd.response)), Param("username", Quoted(hd.username)),
      Param("realm", Quoted(hd.realm)), Param("uri", Quoted(hd.uri)), Param("qop", Token(hd.qop)),
      Param("cnonce", Quoted(hd.cnonce)), Param("nc", Token(hd.nc)), Param("userhash", Token(hd.userhash)),
      Param("opaque", Quoted(hd.opaqueField)), Param("algorithm", Token(hd.algorithm)),
      Param("nonce", Quoted(hd.nonce)) ]
  }

  /** createDigestAuth's value, with `nc` the count after this request: a TypeError when the
      challenge has no `qop` (`.split` on undefined) or no `algorithm` (`.toLowerCase`). */
  function Authorization(h: Primitive, ch: map<string, string>, inp: DigestInput, nc: nat): Result<string, JsError> {
    if "qop" !in ch || "algorithm" !in ch then Err(TypeError)
    else Ok("Digest " + Join(Fields(HeaderOf(ch, inp, Compute(h, ch, inp, nc))), ""))
  }

  // ---------------------------------------------------------------------------
  // The response, as section 3.4.1 of RFC 7616 defines it

  /** The request-digest of section 3.4.1 of RFC 7616 over a hash function `H`, and of section
      2.1.2 of RFC 2069 when no qop is chosen, with `KD(secret, data) = H(secret ":" data)`. */
  function RfcResponse(H: string -> string, user: string, realm: string, password: string,
                       httpMethod: string, uri: string, body: string, nonce: string, nc: string,
                       cnonce: string, qop: Option<string>, sess: bool): string
  {
    var a1 := if sess then H(user + ":" + realm + ":" + password) + ":" + nonce + ":" + cnonce
              else user + ":" + realm + ":" + password;
    var a2 := if qop == Some("auth-int") then httpMethod + ":" + uri + ":" + H(body) else httpMethod + ":" + uri;
    var secret := H(a1);
    if qop.None? then H(secret + ":" + (nonce + ":" + H(a2)))
    else H(secret + ":" + (nonce + ":" + nc + ":" + cnonce + ":" + qop.value + ":" + H(a2)))
  }

  /** For a challenge with a realm and a nonce, the response is the one the RFCs define, with
      the resolved primitive as `H`, over the user the header names. Without `userhash="true"`
      that is the user name itself. With it, the name in A1 is already `H(user ":" realm)`,
      where section 3.4.4 of RFC 7616 keeps the plain name in A1 and hashes only the one the
      header carries. */
  lemma ResponseIsRfc(h: Primitive, ch: map<string, string>, inp: DigestInput, nc: nat)
    requires "qop" in ch && "realm" in ch && "nonce" in ch
    ensures var c := Compute(h, ch, inp, nc);
            var H := (d: string) => Hash(h, Alg(ch), d);
            c.response == RfcResponse(H, c.user, ch["realm"], inp.password, inp.httpMethod, inp.path,
                                      inp.body, ch["nonce"], NcPad(nc), c.cnonce, c.qop,
                                      "algorithm" in ch && IsSess(ch["algorithm"]))
    ensures Get(ch, "userhash") != Some("true") ==> Compute(h, ch, inp, nc).user == inp.user
    ensures Get(ch, "userhash") == Some("true") ==>
              Compute(h, ch, inp, nc).user == Hash(h, Alg(ch), inp.user + ":" + ch["realm"])
  {
  }
}

=== FILE: digest_wire.dfy ===
/** What a server reading createDigestAuth's header with the same parser sees: the `Digest`
    scheme and every field the template writes, with the value the calculation gives it. */
module DigestWire {
  import opened Wrappers
  import opened Text
  import opened Challenge
  import opened Digest

  /** Every digest the primitives give is free of backslashes, as hex digits are. */
  ghost predicate PlainDigests(h: Primitive) {
    forall a, d :: NoBackslash(h(a, d))
  }

  /** A value the parser reads back as a bare token. */
  predicate IsToken(t: string) {
    WellFormedValue(Token(t))
  }

  /** The challenge and the request hold nothing `quote` cannot carry, and the two values the
      template writes bare are tokens. */
  predicate Writable(ch: map<string, string>, inp: DigestInput) {
    && "algorithm" in ch && IsToken(ch["algorithm"])
    && IsToken(Or(Get(ch, "userhash"), "false"))
    && NoBackslash(inp.user) && NoBackslash(inp.path)
    && NoBackslash(Or(Get(ch, "realm"), "")) && NoBackslash(Or(Get(ch, "opaque"), ""))
    && NoBackslash(Or(Get(ch, "nonce"), ""))
  }

  /** What `quote` puts between the quotes reads back when the text has no backslash. */
  lemma QuoteTextReadable(x: Option<string>)
    requires NoBackslash(Or(x, ""))
    ensures QuotedText(QuoteText(x))
  {
    EscapeRoundTrip(Or(x, ""));
  }

  /** The qop the header names is a token. */
  lemma QopToken(q: Option<string>)
    requires q in {None, Some("auth"), Some("auth-int")}
    ensures IsToken(if q.Some? then q.value else "null")
  {
  }

  /** The digits of the count are a token. */
  lemma NcToken(nc: nat)
    ensures IsToken(NcPad(nc))
  {
    var t := NcPad(nc);
    assert IsDigit(t[0]);
  }

  /** A parameter name the parser reads back whole. */
  predicate GoodName(n: string) {
    |n| >= 1 && forall i :: 0 <= i < |n| ==> IsNameChar(n[i]) && n[i] != ','
  }

  /** Names of lower-case letters are names the parser reads. */
  lemma NamesGood(ns: seq<string>)
    requires forall i :: 0 <= i < |ns| ==> |ns[i]| >= 1 && forall j :: 0 <= j < |ns[i]| ==> 'a' <= ns[i][j] <= 'z'
    ensures forall i :: 0 <= i < |ns| ==> GoodName(ns[i])
  {
  }

  /** The names the template writes, in order. */
  const FieldNameList: seq<string> :=
    ["response", "username", "realm", "uri", "qop", "cnonce", "nc", "userhash", "opaque", "algorithm", "nonce"]

  lemma FieldNameListGood()
    ensures forall i :: 0 <= i < |FieldNameList| ==> GoodName(FieldNameList[i])
  {
    NamesGood(FieldNameList[..6]);
    NamesGood(FieldNameList[6..]);
    assert forall i :: 6 <= i < 11 ==> FieldNameList[i] == FieldNameList[6..][i - 6];
  }

  /** The names the template writes. */
  lemma FieldNames(hd: Header)
    ensures var ps := Fields(hd);
            forall i :: 0 <= i < |ps| ==> GoodName(ps[i].name)
  {
    FieldNameListGood();
    var ps := Fields(hd);
    assert forall i :: 0 <= i < |ps| ==> ps[i].name == FieldNameList[i];
  }

  /** Header values the parser reads back: quoted-string bodies and tokens where they belong. */
  predicate Readable(hd: Header) {
    && QuotedText(hd.response) && QuotedText(hd.username) && QuotedText(hd.realm)
    && QuotedText(hd.uri) && IsToken(hd.qop) && QuotedText(hd.cnonce) && IsToken(hd.nc)
    && IsToken(hd.userhash) && QuotedText(hd.opaqueField) && IsToken(hd.algorithm) && QuotedText(hd.nonce)
  }

  /** Every field of a readable header is one the parser can read back. */
  lemma FieldsWellFormed(hd: Header)
    requires Readable(hd)
    ensures var ps := Fields(hd);
            forall i :: 0 <= i < |ps| ==> WellFormed(ps[i])
  {
    FieldNames(hd);
  }

  /** The values the calculation gives that the template writes. */
  predicate PlainComputed(c: Computed, nc: nat) {
    && NoBackslash(c.response) && NoBackslash(c.user) && NoBackslash(c.cnonce)
    && c.qop in {None, Some("auth"), Some("auth-int")} && c.ncpad == NcPad(nc)
  }

  lemma ComputedPlain(h: Primitive, ch: map<string, string>, inp: DigestInput, nc: nat)
    requires "qop" in ch && NoBackslash(inp.user) && PlainDigests(h)
    ensures PlainComputed(Compute(h, ch, inp, nc), nc)
  {
    var alg := Alg(ch);
    assert NoBackslash(h(HashAlgOf(alg), inp.seed));
  }

  /** The header written for a writable challenge is readable. */
  lemma HeaderReadable(c: Computed, ch: map<string, string>, inp: DigestInput, nc: nat)
    requires Writable(ch, inp) && PlainComputed(c, nc)
    ensures Readable(HeaderOf(ch, inp, c))
  {
    QuoteTextReadable(Some(c.response));
    QuoteTextReadable(Some(c.user));
    QuoteTextReadable(Get(ch, "realm"));
    QuoteTextReadable(Some(inp.path));
    QuoteTextReadable(Some(c.cnonce));
    QuoteTextReadable(Get(ch, "opaque"));
    QuoteTextReadable(Get(ch, "nonce"));
    NcToken(nc);
    QopToken(c.qop);
  }

  /** The header is the scheme, a space and the fields joined by commas. */
  lemma AuthorizationShape(h: Primitive, ch: map<string, string>, inp: DigestInput, nc: nat)
    requires "qop" in ch && "algorithm" in ch
    ensures Authorization(h, ch, inp, nc)
            == Ok("Digest" + " " + Join(Fields(HeaderOf(ch, inp, Compute(h, ch, inp, nc))), ""))
  {
    assert "Digest " == "Digest" + " ";
  }

  /** `Digest` is made of scheme characters. */
  lemma DigestScheme()
    ensures |"Digest"| >= 1 && forall i :: 0 <= i < |"Digest"| ==> IsSchemeChar("Digest"[i])
  {
  }

  /** A readable `Digest` header parses back to its fields. */
  lemma ParseDigest(hd: Header)
    requires Readable(hd)
    ensures Parse("Digest" + " " + Join(Fields(hd), "")) == AuthHeader(Some("Digest"), StoreAll(map[], Fields(hd)))
  {
    FieldsWellFormed(hd);
    DigestScheme();
    ParseJoined("Digest", Fields(hd));
  }

  /** The header createDigestAuth writes parses back to the `Digest` scheme and to its fields,
      stored in order. */
  lemma AuthorizationParses(h: Primitive, ch: map<string, string>, inp: DigestInput, nc: nat)
    requires "qop" in ch && Writable(ch, inp) && PlainDigests(h)
    ensures Authorization(h, ch, inp, nc).Ok?
    ensures var hd := HeaderOf(ch, inp, Compute(h, ch, inp, nc));
            Parse(Authorization(h, ch, inp, nc).value) == AuthHeader(Some("Digest"), StoreAll(map[], Fields(hd)))
  {
    var c := Compute(h, ch, inp, nc);
    ComputedPlain(h, ch, inp, nc);
    HeaderReadable(c, ch, inp, nc);
    AuthorizationShape(h, ch, inp, nc);
    ParseDigest(HeaderOf(ch, inp, c));
  }

  /** The table the fields are stored in holds the count, the qop, the response, the user name
      and the userhash flag. */
  lemma FieldLookup(hd: Header)
    ensures var p := StoreAll(map[], Fields(hd));
            && "nc" in p && p["nc"] == hd.nc
            && "qop" in p && p["qop"] == hd.qop
            && "response" in p && p["response"] == Stored(Quoted(hd.response))
            && "username" in p && p["username"] == Stored(Quoted(hd.username))
            && "userhash" in p && p["userhash"] == hd.userhash
  {
    LookupCredentials(hd);
    LookupCount(hd);
    LookupUserhash(hd);
  }

  /** The response and the user name are stored under their own names. */
  lemma LookupCredentials(hd: Header)
    ensures var p := StoreAll(map[], Fields(hd));
            && "response" in p && p["response"] == Stored(Quoted(hd.response))
            && "username" in p && p["username"] == Stored(Quoted(hd.username))
  {
    var ps := Fields(hd);
    StoreAllFind(map[], ps, 1);
    StoreAllFind(map[], ps, 0);
  }

  /** The qop and the count are stored under their own names. */
  lemma LookupCount(hd: Header)
    ensures var p := StoreAll(map[], Fields(hd));
            && "nc" in p && p["nc"] == hd.nc
            && "qop" in p && p["qop"] == hd.qop
  {
    var ps := Fields(hd);
    StoreAllFind(map[], ps, 6);
    StoreAllFind(map[], ps, 4);
  }

  /** The userhash flag is stored under its own name. */
  lemma LookupUserhash(hd: Header)
    ensures var p := StoreAll(map[], Fields(hd));
            "userhash" in p && p["userhash"] == hd.userhash
  {
    StoreAllFind(map[], Fields(hd), 7);
  }

  /** The server reads the count, the chosen qop, the response the calculation made, and the
      user name: `H(user ":" realm)` exactly when the challenge says `userhash="true"`, which
      the header repeats (`false` when the challenge is silent). */
  lemma AuthorizationFields(h: Primitive, ch: map<string, string>, inp: DigestInput, nc: nat)
    requires "qop" in ch && Writable(ch, inp) && PlainDigests(h)
    ensures Authorization(h, ch, inp, nc).Ok?
    ensures var c := Compute(h, ch, inp, nc);
            var p := Parse(Authorization(h, ch, inp, nc).value).params;
            && "nc" in p && p["nc"] == NcPad(nc) && DigitsValue(p["nc"]) == nc
            && "qop" in p && p["qop"] == (if c.qop.Some? then c.qop.value else "null")
            && "response" in p && p["response"] == Stored(Quoted(QuoteText(Some(c.response))))
            && "userhash" in p && p["userhash"] == Or(Get(ch, "userhash"), "false")
            && "username" in p && p["username"] == Stored(Quoted(QuoteText(Some(c.user))))
    ensures var user := Compute(h, ch, inp, nc).user;
            && (Get(ch, "userhash") == Some("true") ==> user == Hash(h, Alg(ch), inp.user + ":" + Str(Get(ch, "realm"))))
            && (Get(ch, "userhash") != Some("true") ==> user == inp.user)
  {
    AuthorizationParses(h, ch, inp, nc);
    FieldLookup(HeaderOf(ch, inp, Compute(h, ch, inp, nc)));
    NcPadRoundTrip(nc);
  }

  /** The user name the server reads back is the one the calculation used. */
  lemma AuthorizationUser(h: Primitive, ch: map<string, string>, inp: DigestInput, nc: nat)
    requires "qop" in ch && Writable(ch, inp) && PlainDigests(h)
    ensures Authorization(h, ch, inp, nc).Ok?
    ensures var p := Parse(Authorization(h, ch, inp, nc).value).params;
            "username" in p && p["username"] == Stored(Quoted(QuoteText(Some(UserOf(h, ch, inp)))))
  {
    AuthorizationParses(h, ch, inp, nc);
    LookupCredentials(HeaderOf(ch, inp, Compute(h, ch, inp, nc)));
  }

  /** The user name the server reads, once unescaped, is the one A1 was computed from (a
      non-empty one: an empty quoted value is stored as the two quotes). */
  lemma UserInA1(h: Primitive, ch: map<string, string>, inp: DigestInput, nc: nat)
    requires "qop" in ch && Writable(ch, inp) && PlainDigests(h) && !IsSess(ch["algorithm"])
    ensures var c := Compute(h, ch, inp, nc);
            var p := Parse(Authorization(h, ch, inp, nc).value).params;
            && "username" in p
            && (c.user != [] ==>
                  && Unescape(p["username"]) == c.user
                  && c.ha1 == Hash(h, Alg(ch), Unescape(p["username"]) + ":" + Str(Get(ch, "realm")) + ":" + inp.password))
  {
    var c := Compute(h, ch, inp, nc);
    AuthorizationUser(h, ch, inp, nc);
    ComputedPlain(h, ch, inp, nc);
    EscapeRoundTrip(c.user);
  }
}

=== FILE: legacy_provider.dfy ===
/** `nsWebDAV`, the cloud-file provider of the legacy (XPCOM) add-on: how a finished request's
    status is classified, the table of running uploads, the quota figures read from a PROPFIND
    answer, the check that the base URL is a collection, and the offline guards. The network
    and the XML parser are replaced by the values they would deliver. */
module LegacyProvider {
  import opened Wrappers
  import opened Text

  // ---------------------------------------------------------------------------
  // Status codes

  /** The nsresult values the provider meets or produces. */
  datatype NsResult =
    | Success(code: nat)      // any code Components.isSuccessCode accepts, NS_OK among them
    | BindingAborted          // NS_BINDING_ABORTED: the channel was cancelled
    | Failure(code: nat)      // any other failure the transport reports
    | AuthErr                 // nsIMsgCloudFileProvider.authErr
    | UploadWouldExceedQuota  // nsIMsgCloudFileProvider.uploadWouldExceedQuota
    | UploadErr               // nsIMsgCloudFileProvider.uploadErr
    | UploadCanceled          // nsIMsgCloudFileProvider.uploadCanceled
    | OfflineErr              // nsIMsgCloudFileProvider.offlineErr
    | ErrorFailure            // NS_ERROR_FAILURE

  predicate IsSuccessCode(r: NsResult) {
    r.Success?
  }

  /** `Math.floor(httpStatus / 100) == 2`. */
  predicate Is2xx(httpStatus: nat) {
    httpStatus / 100 == 2
  }

  /** What onStreamComplete hands to the operation's callback. */
  datatype Completion = Completion(httpStatus: nat, status: NsResult)

  /** onStreamComplete: with a successful transport the HTTP status is read (None when reading
      it throws, which is caught and leaves everything as it was) and a non-2xx status is
      turned into the provider's error; a failed transport keeps `httpStatus` at 0 and becomes
      uploadCanceled when it was cancelled, uploadErr otherwise. */
  function Classify(status: NsResult, responseStatus: Option<nat>): (c: Completion)
    ensures IsSuccessCode(c.status) ==> c.status == status && (c.httpStatus == 0 || Is2xx(c.httpStatus))
    ensures !IsSuccessCode(status) ==> c.httpStatus == 0
  {
    if IsSuccessCode(status) then
      match responseStatus
      case None => Completion(0, status)
      case Some(http) =>
        if Is2xx(http) then Completion(http, status)
        else if http == 401 || http == 403 then Completion(http, AuthErr)
        else if http == 507 then Completion(http, UploadWouldExceedQuota)
        else Completion(http, UploadErr)
    else if status == BindingAborted then Completion(0, UploadCanceled)
    else Completion(0, UploadErr)
  }

  /** Each outcome of a request, and the status the callback sees for it. */
  lemma ClassifyCases(status: NsResult, http: nat)
    ensures IsSuccessCode(status) && 200 <= http <= 299 ==> Classify(status, Some(http)) == Completion(http, status)
    ensures IsSuccessCode(status) && (http == 401 || http == 403) ==> Classify(status, Some(http)).status == AuthErr
    ensures IsSuccessCode(status) && http == 507 ==> Classify(status, Some(http)).status == UploadWouldExceedQuota
    ensures IsSuccessCode(status) && !(200 <= http <= 299) && http !in {401, 403, 507} ==>
              Classify(status, Some(http)).status == UploadErr
    ensures IsSuccessCode(status) ==> Classify(status, Some(http)).httpStatus == http
    ensures status == BindingAborted ==> Classify(status, Some(http)) == Completion(0, UploadCanceled)
    ensures !IsSuccessCode(status) && status != BindingAborted ==> Classify(status, Some(http)) == Completion(0, UploadErr)
  {
  }

  // ---------------------------------------------------------------------------
  // The quota figures

  /** A JavaScript number, as far as comparisons with -1 and 0 need it. */
  datatype JsNumber = NaN | Finite(value: real) | PosInfinity | NegInfinity

  /** `x < k` for a number and an integer: false for NaN. */
  predicate Below(x: JsNumber, k: int) {
    match x
    case NaN => false
    case Finite(v) => v < k as real
    case PosInfinity => false
    case NegInfinity => true
  }

  /** `x > k` for a number and an integer: false for NaN. */
  predicate Above(x: JsNumber, k: int) {
    match x
    case NaN => false
    case Finite(v) => v > k as real
    case PosInfinity => true
    case NegInfinity => false
  }

  /** ToNumber on a string, which comparing a string with a number applies; left abstract. */
  type ToNumber = string -> JsNumber

  /** What a quota field holds: the number -1 or 0 the code writes, or an element's text,
      stored as the string it is. */
  datatype JsValue = Number(n: int) | Text(text: string)

  /** `_fileSpaceUsed` after a 2xx PROPFIND, from the `quota-used-bytes` text (None when there
      is no such element): the text unless it is empty or compares below 0, else -1. */
  function UsedQuota(used: Option<string>, num: ToNumber): (v: JsValue)
    ensures v.Text? ==> used.Some? && v.text == used.value
  {
    var first := if used.Some? && used.value != "" then Text(used.value) else Number(-1);
    match first
    case Number(n) => Number(-1)
    case Text(t) => if Below(num(t), 0) then Number(-1) else first
  }

  /** `_fileSpaceUsed`: -1 for a missing, empty or negative figure, and the text otherwise
      (NaN is not below 0, so text that is not a number is kept). */
  lemma UsedQuotaCases(used: Option<string>, num: ToNumber)
    ensures used.None? || used.value == "" ==> UsedQuota(used, num) == Number(-1)
    ensures used.Some? && used.value != "" ==>
              UsedQuota(used, num) == if Below(num(used.value), 0) then Number(-1) else Text(used.value)
  {
  }

  /** `_fileSpaceAvailable` after a 2xx PROPFIND, from the `quota-available-bytes` text (None
      when there is no such element, when `fsa` is the number 0), given the old value:
      the text when it compares above -1; -1 when it is empty; 0 when it is missing or
      compares below 0; and unchanged for text that is not a number. */
  function AvailableQuota(available: Option<string>, num: ToNumber, previous: JsValue): (v: JsValue)
    ensures v.Text? ==> v == previous || (available.Some? && v.text == available.value)
  {
    match available
    case None => Number(0)
    case Some(fsa) =>
      if fsa != "" && Above(num(fsa), -1) then Text(fsa)
      else if fsa == "" then Number(-1)
      else if Below(num(fsa), 0) then Number(0)
      else previous
  }

  /** The four outcomes for the available figure. */
  lemma AvailableQuotaCases(available: Option<string>, num: ToNumber, previous: JsValue)
    ensures available.None? ==> AvailableQuota(available, num, previous) == Number(0)
    ensures available == Some("") ==> AvailableQuota(available, num, previous) == Number(-1)
    ensures available.Some? && available.value != "" && Above(num(available.value), -1) ==>
              AvailableQuota(available, num, previous) == Text(available.value)
    ensures available.Some? && available.value != "" && !Above(num(available.value), -1) && num(available.value) != NaN ==>
              AvailableQuota(available, num, previous) == Number(0)
    ensures available.Some? && available.value != "" && num(available.value) == NaN ==>
              AvailableQuota(available, num, previous) == previous
  {
  }

  // ---------------------------------------------------------------------------
  // createExistingAccount's check

  /** The status createExistingAccount reports: after a 2xx answer, NS_ERROR_FAILURE unless the
      first child of the first `resourcetype` element is named `collection` (None when there is
      no such element or child, or the child has no local name, which reads as "unknown"). */
  function AccountCheckStatus(c: Completion, firstChildName: Option<string>): (status: NsResult)
    ensures status != c.status ==> status == ErrorFailure
  {
    if IsSuccessCode(c.status) && Is2xx(c.httpStatus) && Or(firstChildName, "unknown") != "collection" then
      ErrorFailure
    else c.status
  }

  /** A successful 2xx answer stands only when it names a collection; every other answer is
      reported as classified. A success whose HTTP status could not be read is passed on as a
      success without the check. */
  lemma AccountCheckCases(status: NsResult, responseStatus: Option<nat>, firstChildName: Option<string>)
    ensures var c := Classify(status, responseStatus);
            && (IsSuccessCode(AccountCheckStatus(c, firstChildName)) <==>
                  IsSuccessCode(status) && (responseStatus.None? || (Is2xx(responseStatus.value) && firstChildName == Some("collection"))))
            && (!IsSuccessCode(c.status) ==> AccountCheckStatus(c, firstChildName) == c.status)
  {
  }

  // ---------------------------------------------------------------------------
  // The provider

  /** A request the provider sends. */
  datatype DavRequest = DavRequest(httpMethod: string, url: string)

  /** How createExistingAccount starts: the PROPFIND is sent, or the callback is told at once
      that the base URL is not a valid URI. */
  datatype Start = Sent(request: DavRequest) | Stopped(status: NsResult)

  /** An upload channel: the URL it was opened for and the status it was cancelled with. */
  class Channel {
    const spec: string
    var cancelled: Option<NsResult>

    constructor(spec: string)
      ensures this.spec == spec && cancelled == None
    {
      this.spec := spec;
      cancelled := None;
    }

    method Cancel(reason: NsResult)
      modifies this
      ensures cancelled == Some(reason)
    {
      cancelled := Some(reason);
    }
  }

  class WebDavProvider {
    var baseURL: string
    var uploads: map<string, Channel>
    var fileSpaceUsed: JsValue
    var fileSpaceAvailable: JsValue

    /** `new nsWebDAV()` followed by `init`, given the account's `baseURL` preference. */
    constructor(baseURL: string)
      ensures this.baseURL == baseURL && uploads == map[]
      ensures fileSpaceUsed == Number(-1) && fileSpaceAvailable == Number(-1)
    {
      this.baseURL := baseURL;
      uploads := map[];
      fileSpaceUsed := Number(-1);
      fileSpaceAvailable := Number(-1);
    }

    /** urlForFile: the base URL followed by the file's leaf name, so the leaf name can be read
        back from the URL. */
    function UrlForFile(leafName: string): (url: string)
      reads this
      ensures |url| == |baseURL| + |leafName| && url[..|baseURL|] == baseURL && url[|baseURL|..] == leafName
    {
      baseURL + leafName
    }

    /** uploadFile: offline it throws offlineErr and changes nothing. Otherwise it opens a PUT
        channel to the file's URL, records it under that URL and reports the start (`Some`).
        When opening the file stream or setting up the channel throws (`failed`), the `catch`
        only logs: nothing is recorded, the start is not reported (`None`) and nothing is
        thrown. */
    method UploadFile(offline: bool, leafName: string, failed: bool) returns (r: Result<Option<Channel>, NsResult>)
      modifies this
      ensures offline ==> r == Err(OfflineErr) && unchanged(this)
      ensures !offline && failed ==> r == Ok(None) && unchanged(this)
      ensures !offline && !failed ==>
                && r.Ok? && r.value.Some? && fresh(r.value.value)
                && r.value.value.spec == UrlForFile(leafName) && r.value.value.cancelled == None
                && uploads == old(uploads)[UrlForFile(leafName) := r.value.value]
      ensures baseURL == old(baseURL) && fileSpaceUsed == old(fileSpaceUsed)
      ensures fileSpaceAvailable == old(fileSpaceAvailable)
    {
      if offline {
        return Err(OfflineErr);
      }
      if failed {
        return Ok(None);
      }
      var url := UrlForFile(leafName);
      var channel := new Channel(url);
      uploads := uploads[url := channel];
      r := Ok(Some(channel));
    }

    /** The upload's completion: the entry for the channel's URL is deleted and the callback
        receives the classified status; a cancelled channel completes with the status it was
        cancelled with. */
    method UploadStopped(channel: Channel, transport: NsResult, responseStatus: Option<nat>)
      returns (status: NsResult)
      modifies this
      ensures uploads == old(uploads) - {channel.spec}
      ensures status == Classify(if channel.cancelled.Some? then channel.cancelled.value else transport,
                                 responseStatus).status
      ensures channel.cancelled == Some(BindingAborted) ==> status == UploadCanceled
      ensures baseURL == old(baseURL) && fileSpaceUsed == old(fileSpaceUsed)
      ensures fileSpaceAvailable == old(fileSpaceAvailable)
    {
      var st := if channel.cancelled.Some? then channel.cancelled.value else transport;
      status := Classify(st, responseStatus).status;
      uploads := uploads - {channel.spec};
    }

    /** cancelFileUpload: offline it throws offlineErr; otherwise it cancels the running upload
        for the file, if there is one, with NS_BINDING_ABORTED, and says whether there was. */
    method CancelFileUpload(offline: bool, leafName: string) returns (r: Result<bool, NsResult>)
      modifies if baseURL + leafName in uploads then {uploads[baseURL + leafName]} else {}
      ensures offline ==> r == Err(OfflineErr)
      ensures offline && UrlForFile(leafName) in uploads ==>
                uploads[UrlForFile(leafName)].cancelled == old(uploads[UrlForFile(leafName)].cancelled)
      ensures !offline ==> r == Ok(UrlForFile(leafName) in uploads)
      ensures !offline && UrlForFile(leafName) in uploads ==>
                uploads[UrlForFile(leafName)].cancelled == Some(BindingAborted)
    {
      if offline {
        return Err(OfflineErr);
      }
      var url := UrlForFile(leafName);
      if url in uploads {
        uploads[url].Cancel(BindingAborted);
        return Ok(true);
      }
      return Ok(false);
    }

    /** refreshUserInfo: offline it throws offlineErr; otherwise it sends a PROPFIND for the
        quota to the base URL. An error from setting up the channel (`sendError`: `newURI`,
        `newChannelFromURI` or `asyncOpen` throwing) reaches the caller. */
    method RefreshUserInfo(offline: bool, sendError: Option<NsResult>) returns (r: Result<DavRequest, NsResult>)
      ensures offline ==> r == Err(OfflineErr)
      ensures !offline && sendError.Some? ==> r == Err(sendError.value)
      ensures !offline && sendError.None? ==> r == Ok(DavRequest("PROPFIND", baseURL))
    {
      if offline {
        return Err(OfflineErr);
      }
      if sendError.Some? {
        return Err(sendError.value);
      }
      r := Ok(DavRequest("PROPFIND", baseURL));
    }

    /** refreshUserInfo's completion: only a successful 2xx answer updates the two figures,
        from the texts of the two quota elements. */
    method UserInfoReceived(transport: NsResult, responseStatus: Option<nat>, used: Option<string>,
                            available: Option<string>, num: ToNumber)
      returns (status: NsResult)
      modifies this
      ensures var c := Classify(transport, responseStatus);
              && status == c.status
              && (IsSuccessCode(c.status) && Is2xx(c.httpStatus) ==>
                    fileSpaceUsed == UsedQuota(used, num)
                    && fileSpaceAvailable == AvailableQuota(available, num, old(fileSpaceAvailable)))
              && (!(IsSuccessCode(c.status) && Is2xx(c.httpStatus)) ==>
                    fileSpaceUsed == old(fileSpaceUsed) && fileSpaceAvailable == old(fileSpaceAvailable))
      ensures baseURL == old(baseURL) && uploads == old(uploads)
    {
      var c := Classify(transport, responseStatus);
      if IsSuccessCode(c.status) && Is2xx(c.httpStatus) {
        fileSpaceUsed := if used.Some? && used.value != "" then Text(used.value) else Number(-1);
        if fileSpaceUsed.Number? || Below(num(fileSpaceUsed.text), 0) {
          fileSpaceUsed := Number(-1);
        }
        if available.None? {
          fileSpaceAvailable := Number(0);
        } else if available.value != "" && Above(num(available.value), -1) {
          fileSpaceAvailable := Text(available.value);
        } else if available.value == "" {
          fileSpaceAvailable := Number(-1);
        } else if Below(num(available.value), 0) {
          fileSpaceAvailable := Number(0);
        }
      }
      status := c.status;
    }

    /** deleteFile: offline it throws offlineErr; otherwise it sends a DELETE to the file's URL.
        An error from setting up the channel (`sendError`) reaches the caller. */
    method DeleteFile(offline: bool, leafName: string, sendError: Option<NsResult>) returns (r: Result<DavRequest, NsResult>)
      ensures offline ==> r == Err(OfflineErr)
      ensures !offline && sendError.Some? ==> r == Err(sendError.value)
      ensures !offline && sendError.None? ==> r == Ok(DavRequest("DELETE", UrlForFile(leafName)))
    {
      if offline {
        return Err(OfflineErr);
      }
      if sendError.Some? {
        return Err(sendError.value);
      }
      r := Ok(DavRequest("DELETE", UrlForFile(leafName)));
    }

    /** createExistingAccount: offline it throws offlineErr; a base URL that is not a valid URI
        (`uriError` holds the error) stops at once with that error; otherwise a PROPFIND for the
        resource type is sent to the base URL. */
    method CreateExistingAccount(offline: bool, uriError: Option<NsResult>) returns (r: Result<Start, NsResult>)
      ensures offline ==> r == Err(OfflineErr)
      ensures !offline && uriError.Some? ==> r == Ok(Stopped(uriError.value))
      ensures !offline && uriError.None? ==> r == Ok(Sent(DavRequest("PROPFIND", baseURL)))
    {
      if offline {
        return Err(OfflineErr);
      }
      if uriError.Some? {
        return Ok(Stopped(uriError.value));
      }
      r := Ok(Sent(DavRequest("PROPFIND", baseURL)));
    }
  }
}

=== FILE: session.dfy ===
/** `FetchSession`: the per-origin authentication state, `createBasicAuth`, the state changes of
    `createDigestAuth`, `addAuthentication` and the retry-once `fetch`. Each operation is given
    twice: as a function from the old state to the result and the new state, about which the
    properties are proved, and as a method of the `FetchSession` class that updates the fields
    in place and is proved to agree with the function. URLs come in already split into their
    origin and path; the network is a function from the attempt number and the request to the
    response. */
module Session {
  import opened Wrappers
  import opened Text
  import opened Base64
  import opened Challenge
  import opened Digest
  import opened DigestWire

  // ---------------------------------------------------------------------------
  // State

  /** `options.auth`: a user name and a password, where the empty string is falsy. */
  datatype Credentials = Credentials(username: string, password: string)

  /** What `fetch` stores for an origin after a 401: the challenge's scheme (null when the
      parser found none) and parameters, the user name that will answer it, and the nonce
      count. */
  datatype OriginData = OriginData(authScheme: Option<string>, challenge: map<string, string>,
                                   username: string, nc: nat)

  /** The session's fields: the `originData` Map and the one `lastNonce` shared by all origins
      (undefined until the first Digest request). */
  datatype SessionState = SessionState(originData: map<string, OriginData>, lastNonce: Option<string>)

  /** The parts of the request options the session reads, besides `headers`. */
  datatype Options = Options(httpMethod: Option<string>, body: Option<string>, auth: Option<Credentials>)

  /** A result together with the session state it leaves behind. */
  datatype Step<T> = Step(result: Result<T, JsError>, state: SessionState)

  /** `getOriginData`: the origin's entry, or `{}` (None) when there is none. */
  function Lookup(s: SessionState, origin: string): Option<OriginData> {
    if origin in s.originData then Some(s.originData[origin]) else None
  }

  /** `setOriginData`: the origin's entry replaced whole; `lastNonce` is not touched. */
  function Store(s: SessionState, origin: string, od: OriginData): SessionState {
    s.(originData := s.originData[origin := od])
  }

  /** Reading an origin after storing it gives what was stored, and every other origin reads as
      before. */
  lemma LookupStore(s: SessionState, origin: string, od: OriginData, other: string)
    ensures Lookup(Store(s, origin, od), origin) == Some(od)
    ensures other != origin ==> Lookup(Store(s, origin, od), other) == Lookup(s, other)
    ensures Store(s, origin, od).lastNonce == s.lastNonce
  {
  }

  // ---------------------------------------------------------------------------
  // createBasicAuth

  /** `"Basic " + btoa(username + ":" + password)`: a TypeError without `options.auth`, and
      btoa's InvalidCharacterError for a character above U+00FF. */
  function BasicAuth(auth: Option<Credentials>): Result<string, JsError> {
    match auth
    case None => Err(TypeError)
    case Some(c) =>
      match Btoa(c.username + ":" + c.password)
      case Err(e) => Err(e)
      case Ok(t) => Ok("Basic " + t)
  }

  /** The Basic header fails exactly when a character is above U+00FF, and otherwise carries
      the user name and password, joined by a colon, in a form `atob` reads back (section 2 of
      RFC 7617). */
  lemma BasicAuthRoundTrip(c: Credentials)
    ensures var cred := c.username + ":" + c.password;
            BasicAuth(Some(c)).Err? <==> exists i :: 0 <= i < |cred| && cred[i] as int >= 256
    ensures BasicAuth(Some(c)).Ok? ==>
              var v := BasicAuth(Some(c)).value;
              |v| >= 6 && v[..6] == "Basic " && Atob(v[6..]) == Some(c.username + ":" + c.password)
  {
    var cred := c.username + ":" + c.password;
    BtoaRoundTrip(cred);
    if BasicAuth(Some(c)).Ok? {
      var v := BasicAuth(Some(c)).value;
      assert v[6..] == Btoa(cred).value;
    }
  }

  // ---------------------------------------------------------------------------
  // createDigestAuth

  /** The request as createDigestAuth reads it: `method` defaults to GET and `body` to the
      empty string only when undefined, and the user is `auth.username || originData.username`. */
  function DigestRequest(o: Options, c: Credentials, od: OriginData, path: string, seed: string): DigestInput {
    DigestInput(o.httpMethod.GetOr("GET"), o.body.GetOr(""), path,
                if c.username != "" then c.username else od.username, c.password, seed)
  }

  /** The state once createDigestAuth has moved the count on: one more than the origin's
      count when the challenge's nonce is the session's last nonce (two undefined nonces are
      equal), else 1; and the challenge's nonce becomes the last nonce. */
  function Counted(s: SessionState, origin: string): SessionState
    requires origin in s.originData
  {
    var od := s.originData[origin];
    var nonce := Get(od.challenge, "nonce");
    SessionState(s.originData[origin := od.(nc := NextNc(nonce, s.lastNonce, od.nc))], nonce)
  }

  /** createDigestAuth on the session state. It throws a TypeError, with the state unchanged,
      when the origin has no entry (`originData.challenge` is undefined), when there is no
      `options.auth` or when the challenge has no `qop`; otherwise it first moves the count and
      `lastNonce` on, and only then can a missing `algorithm` throw. */
  function DigestAuth(h: Primitive, s: SessionState, origin: string, path: string, o: Options,
                      seed: string): (r: Step<string>)
    ensures r.state.originData.Keys == s.originData.Keys
    ensures forall k :: k in s.originData && k != origin ==> r.state.originData[k] == s.originData[k]
  {
    if origin !in s.originData || o.auth.None? || "qop" !in s.originData[origin].challenge then
      Step(Err(TypeError), s)
    else
      var od := s.originData[origin];
      var s' := Counted(s, origin);
      Step(Authorization(h, od.challenge, DigestRequest(o, o.auth.value, od, path, seed), s'.originData[origin].nc), s')
  }

  /** When the origin, the credentials and `qop` are there, the count becomes one more than
      the origin's when the nonce is the session's last one and 1 otherwise, the nonce becomes
      the last one, the rest of the entry is kept, and the header is the one the calculation
      gives for that count: a TypeError exactly when the challenge has no `algorithm`. */
  lemma DigestCount(h: Primitive, s: SessionState, origin: string, path: string, o: Options, seed: string)
    requires origin in s.originData && o.auth.Some? && "qop" in s.originData[origin].challenge
    ensures var od := s.originData[origin];
            var nonce := Get(od.challenge, "nonce");
            var nc := if nonce == s.lastNonce then od.nc + 1 else 1;
            var r := DigestAuth(h, s, origin, path, o, seed);
            && r.state.lastNonce == nonce
            && r.state.originData[origin] == od.(nc := nc)
            && r.result == Authorization(h, od.challenge, DigestRequest(o, o.auth.value, od, path, seed), nc)
            && (r.result.Err? <==> "algorithm" !in od.challenge)
  {
  }

  /** Without an entry for the origin, credentials or `qop`, createDigestAuth throws before it
      changes anything. */
  lemma DigestEarlyErrors(h: Primitive, s: SessionState, origin: string, path: string, o: Options, seed: string)
    requires origin !in s.originData || o.auth.None? || "qop" !in s.originData[origin].challenge
    ensures DigestAuth(h, s, origin, path, o, seed) == Step(Err(TypeError), s)
  {
  }

  /** Two requests in a row to one origin under the same challenge count up by one. */
  lemma SameNonceCountsUp(h: Primitive, s: SessionState, origin: string, path: string, o: Options,
                          seed0: string, seed1: string)
    requires origin in s.originData && o.auth.Some? && "qop" in s.originData[origin].challenge
    ensures var s1 := DigestAuth(h, s, origin, path, o, seed0).state;
            var s2 := DigestAuth(h, s1, origin, path, o, seed1).state;
            s2.originData[origin].nc == s1.originData[origin].nc + 1
  {
    var s1 := DigestAuth(h, s, origin, path, o, seed0).state;
    DigestCount(h, s, origin, path, o, seed0);
    DigestCount(h, s1, origin, path, o, seed1);
  }

  /** Because `lastNonce` is one field for the whole session, two origins with different
      nonces, asked in turn, count 1 every time: a request to `b` in between resets the count
      of `a`, so a server that keeps counting sees the pair (nonce, 1) from `a` twice. */
  lemma AlternatingOriginsReset(h: Primitive, s: SessionState, a: string, b: string, path: string,
                                o: Options, seed0: string, seed1: string, seed2: string)
    requires a != b && a in s.originData && b in s.originData && o.auth.Some?
    requires "qop" in s.originData[a].challenge && "qop" in s.originData[b].challenge
    requires Get(s.originData[a].challenge, "nonce") != Get(s.originData[b].challenge, "nonce")
    requires s.lastNonce != Get(s.originData[a].challenge, "nonce")
    ensures var s1 := DigestAuth(h, s, a, path, o, seed0).state;
            var s2 := DigestAuth(h, s1, b, path, o, seed1).state;
            var s3 := DigestAuth(h, s2, a, path, o, seed2).state;
            && s1.originData[a].nc == 1 && s2.originData[b].nc == 1 && s3.originData[a].nc == 1
            && s3.originData[a].challenge == s1.originData[a].challenge
  {
    var s1 := DigestAuth(h, s, a, path, o, seed0).state;
    DigestCount(h, s, a, path, o, seed0);
    assert s1.originData[b] == s.originData[b];
    var s2 := DigestAuth(h, s1, b, path, o, seed1).state;
    DigestCount(h, s1, b, path, o, seed1);
    assert s2.originData[a] == s1.originData[a];
    DigestCount(h, s2, a, path, o, seed2);
  }

  /** A challenge without a nonce on a fresh session: undefined equals undefined, so the first
      request already counts 2 (from the stored 1). */
  lemma UndefinedNonceCountsTwo(h: Primitive, origin: string, od: OriginData, path: string, o: Options, seed: string)
    requires od.nc == 1 && "nonce" !in od.challenge && "qop" in od.challenge && o.auth.Some?
    ensures DigestAuth(h, SessionState(map[origin := od], None), origin, path, o, seed).state.originData[origin].nc == 2
  {
    DigestCount(h, SessionState(map[origin := od], None), origin, path, o, seed);
  }

  /** The state after createDigestAuth has run once per seed, in order, for one origin and one
      set of options. */
  function DigestRun(h: Primitive, s: SessionState, origin: string, path: string, o: Options,
                     seeds: seq<string>): SessionState
    decreases |seeds|
  {
    if seeds == [] then s
    else DigestRun(h, DigestAuth(h, s, origin, path, o, seeds[0]).state, origin, path, o, seeds[1..])
  }

  /** k requests in a row to one origin under one challenge leave its count k above where it
      was when the challenge's nonce already was the session's last one, and at k otherwise;
      the rest of its entry and every other origin's entry are kept, and the nonce becomes the
      last one. */
  lemma {:induction false} RunCounts(h: Primitive, s: SessionState, origin: string, path: string,
                                     o: Options, seeds: seq<string>)
    requires origin in s.originData && o.auth.Some? && "qop" in s.originData[origin].challenge
    ensures var od := s.originData[origin];
            var nonce := Get(od.challenge, "nonce");
            var t := DigestRun(h, s, origin, path, o, seeds);
            && t.originData.Keys == s.originData.Keys
            && t.originData[origin] == od.(nc := (if seeds == [] || nonce == s.lastNonce then od.nc else 0) + |seeds|)
            && (forall k :: k in s.originData && k != origin ==> t.originData[k] == s.originData[k])
            && (seeds != [] ==> t.lastNonce == nonce)
    decreases |seeds|
  {
    if seeds != [] {
      var s1 := DigestAuth(h, s, origin, path, o, seeds[0]).state;
      DigestCount(h, s, origin, path, o, seeds[0]);
      RunCounts(h, s1, origin, path, o, seeds[1..]);
    }
  }

  /** The user name a Digest header carries: `auth.username`, or the user name stored with the
      challenge when that is empty, hashed with the realm when the challenge says
      `userhash="true"`. */
  lemma DigestUserName(h: Primitive, s: SessionState, origin: string, path: string, o: Options, seed: string)
    requires origin in s.originData && o.auth.Some? && "qop" in s.originData[origin].challenge
    requires PlainDigests(h)
    requires var od := s.originData[origin];
             Writable(od.challenge, DigestRequest(o, o.auth.value, od, path, seed))
    ensures var od := s.originData[origin];
            var ch := od.challenge;
            var user := Or(Some(o.auth.value.username), od.username);
            var named := if Get(ch, "userhash") == Some("true") then Hash(h, Alg(ch), user + ":" + Str(Get(ch, "realm")))
                         else user;
            var r := DigestAuth(h, s, origin, path, o, seed);
            && r.result.Ok?
            && var p := Parse(r.result.value).params;
               "username" in p && p["username"] == Stored(Quoted(QuoteText(Some(named))))
  {
    var od := s.originData[origin];
    var nc := if Get(od.challenge, "nonce") == s.lastNonce then od.nc + 1 else 1;
    DigestCount(h, s, origin, path, o, seed);
    AuthorizationUser(h, od.challenge, DigestRequest(o, o.auth.value, od, path, seed), nc);
  }

  // ---------------------------------------------------------------------------
  // addAuthentication

  /** The scheme stored for the origin; `{}.authScheme` is undefined. */
  function SchemeOf(s: SessionState, origin: string): Option<string> {
    if origin in s.originData then s.originData[origin].authScheme else None
  }

  /** Whether a header was attached, and the headers afterwards. */
  datatype Attached = Attached(attached: bool, headers: map<string, string>)

  /** addAuthentication: sets `Authorization` for a stored scheme that is exactly `Digest` or
      `Basic`, and otherwise returns false with nothing changed. An error leaves the headers as
      they were. */
  function AddAuth(h: Primitive, s: SessionState, origin: string, path: string, o: Options,
                   headers: map<string, string>, seed: string): (r: Step<Attached>)
  {
    if SchemeOf(s, origin) == Some("Digest") then
      var d := DigestAuth(h, s, origin, path, o, seed);
      match d.result
      case Err(e) => Step(Err(e), d.state)
      case Ok(v) => Step(Ok(Attached(true, headers["Authorization" := v])), d.state)
    else if SchemeOf(s, origin) == Some("Basic") then
      match BasicAuth(o.auth)
      case Err(e) => Step(Err(e), s)
      case Ok(v) => Step(Ok(Attached(true, headers["Authorization" := v])), s)
    else Step(Ok(Attached(false, headers)), s)
  }

  /** A header is attached exactly for the two schemes, spelled exactly; otherwise nothing
      changes. What is attached is the Basic or the Digest value, and nothing but
      `Authorization` is touched. */
  lemma AddAuthCases(h: Primitive, s: SessionState, origin: string, path: string, o: Options,
                     headers: map<string, string>, seed: string)
    ensures var r := AddAuth(h, s, origin, path, o, headers, seed);
            && (r.result == Ok(Attached(false, headers)) <==> SchemeOf(s, origin) !in {Some("Digest"), Some("Basic")})
            && (SchemeOf(s, origin) !in {Some("Digest"), Some("Basic")} ==> r.state == s)
            && (SchemeOf(s, origin) == Some("Basic") ==>
                  r.state == s && (r.result.Ok? <==> BasicAuth(o.auth).Ok?)
                  && (r.result.Ok? ==> r.result.value.headers == headers["Authorization" := BasicAuth(o.auth).value]))
            && (SchemeOf(s, origin) == Some("Digest") ==>
                  var d := DigestAuth(h, s, origin, path, o, seed);
                  r.state == d.state && (r.result.Ok? <==> d.result.Ok?)
                  && (r.result.Ok? ==> r.result.value.headers == headers["Authorization" := d.result.value]))
  {
  }

  /** addAuthentication changes nothing of the origin's entry but the count. */
  lemma AddAuthKeepsEntry(h: Primitive, s: SessionState, origin: string, path: string, o: Options,
                          headers: map<string, string>, seed: string)
    requires origin in s.originData
    ensures var r := AddAuth(h, s, origin, path, o, headers, seed);
            origin in r.state.originData && r.state.originData[origin].(nc := 1) == s.originData[origin].(nc := 1)
  {
    if SchemeOf(s, origin) == Some("Digest") && o.auth.Some? && "qop" in s.originData[origin].challenge {
      DigestCount(h, s, origin, path, o, seed);
    }
  }

  /** For a stored Digest scheme with credentials and `qop`, addAuthentication attaches the
      Digest header for the next count, or throws when the challenge has no `algorithm`. */
  lemma DigestAttached(h: Primitive, s: SessionState, origin: string, path: string, o: Options,
                       headers: map<string, string>, seed: string)
    requires origin in s.originData && o.auth.Some? && "qop" in s.originData[origin].challenge
    requires s.originData[origin].authScheme == Some("Digest")
    ensures var od := s.originData[origin];
            var nc := if Get(od.challenge, "nonce") == s.lastNonce then od.nc + 1 else 1;
            var auth := Authorization(h, od.challenge, DigestRequest(o, o.auth.value, od, path, seed), nc);
            var r := AddAuth(h, s, origin, path, o, headers, seed);
            && ("algorithm" in od.challenge ==> r.result == Ok(Attached(true, headers["Authorization" := auth.value])))
            && ("algorithm" !in od.challenge ==> r.result == Err(TypeError))
  {
    DigestCount(h, s, origin, path, o, seed);
  }

  // ---------------------------------------------------------------------------
  // fetch

  /** The response as far as `fetch` looks at it. */
  datatype Response = Response(status: int, wwwAuthenticate: Option<string>)

  /** A request as sent: where to, and the options. */
  datatype Request = Request(origin: string, path: string, httpMethod: Option<string>,
                             body: Option<string>, headers: map<string, string>)

  /** The network: the response to the n-th call (from 0) of this fetch. */
  type Network = (nat, Request) -> Response

  /** What a fetch ends with: the response or the error, the session state, the requests sent
      in order and the request's headers afterwards. */
  datatype Exchange = Exchange(result: Result<Response, JsError>, state: SessionState,
                               calls: seq<Request>, headers: map<string, string>)

  function Send(origin: string, path: string, o: Options, headers: map<string, string>): Request {
    Request(origin, path, o.httpMethod, o.body, headers)
  }

  /** A 401 whose `WWW-Authenticate` header is there and not empty. */
  predicate Challenged(resp: Response) {
    resp.status == 401 && Or(resp.wwwAuthenticate, "") != ""
  }

  /** Both credentials are truthy. */
  predicate HasCredentials(o: Options) {
    o.auth.Some? && o.auth.value.username != "" && o.auth.value.password != ""
  }

  /** What a 401 leaves stored for the origin: the parsed challenge, the user name and count 1. */
  function Answered(resp: Response, o: Options): OriginData
    requires Challenged(resp) && HasCredentials(o)
  {
    var ah := Parse(resp.wwwAuthenticate.value);
    OriginData(ah.scheme, ah.params, o.auth.value.username, 1)
  }

  /** fetch from the moment the first request is sent: return the response unless it is a
      challenged 401 and the credentials are truthy (reading `options.auth.username` throws
      when there is no `options.auth`); else replace the origin's entry with the new challenge
      and send once more if addAuthentication attaches a header. */
  function AfterFirst(h: Primitive, net: Network, s: SessionState, origin: string, path: string,
                      o: Options, req: Request, seed: string): (r: Exchange)
    ensures 1 <= |r.calls| <= 2 && r.calls[0] == req
    ensures r.result.Ok? ==> r.result.value == net(|r.calls| - 1, r.calls[|r.calls| - 1])
  {
    var resp := net(0, req);
    if !Challenged(resp) then Exchange(Ok(resp), s, [req], req.headers)
    else if o.auth.None? then Exchange(Err(TypeError), s, [req], req.headers)
    else if !HasCredentials(o) then Exchange(Ok(resp), s, [req], req.headers)
    else
      var s' := Store(s, origin, Answered(resp, o));
      var again := AddAuth(h, s', origin, path, o, req.headers, seed);
      match again.result
      case Err(e) => Exchange(Err(e), again.state, [req], req.headers)
      case Ok(a) =>
        if !a.attached then Exchange(Ok(resp), again.state, [req], req.headers)
        else
          var req2 := Send(origin, path, o, a.headers);
          Exchange(Ok(net(1, req2)), again.state, [req, req2], a.headers)
  }

  /** fetch: create `headers` when absent, attach what the stored scheme calls for, send, and
      on a challenged 401 retry once. The first request's `cnonce` is drawn from `seed0`, the
      retry's from `seed1`. At most two requests are sent, and the response returned is the
      one to the last request sent. */
  function FetchExchange(h: Primitive, net: Network, s: SessionState, origin: string, path: string,
                 o: Options, headers: Option<map<string, string>>, seed0: string, seed1: string): (r: Exchange)
    ensures |r.calls| <= 2
    ensures r.result.Ok? ==> 1 <= |r.calls| && r.result.value == net(|r.calls| - 1, r.calls[|r.calls| - 1])
  {
    var hs := headers.GetOr(map[]);
    var first := AddAuth(h, s, origin, path, o, hs, seed0);
    match first.result
    case Err(e) => Exchange(Err(e), first.state, [], hs)
    case Ok(a) => AfterFirst(h, net, first.state, origin, path, o, Send(origin, path, o, a.headers), seed1)
  }

  /** The first request carries what addAuthentication made of the stored scheme: the caller's
      headers unchanged unless that scheme is exactly `Digest` or `Basic`. */
  lemma FetchFirstRequest(h: Primitive, net: Network, s: SessionState, origin: string, path: string,
                          o: Options, headers: Option<map<string, string>>, seed0: string, seed1: string)
    ensures var r := FetchExchange(h, net, s, origin, path, o, headers, seed0, seed1);
            var first := AddAuth(h, s, origin, path, o, headers.GetOr(map[]), seed0);
            && (|r.calls| == 0 <==> first.result.Err?)
            && (|r.calls| > 0 ==> r.calls[0] == Send(origin, path, o, first.result.value.headers))
            && (|r.calls| > 0 && SchemeOf(s, origin) !in {Some("Digest"), Some("Basic")} ==>
                  r.calls[0].headers == headers.GetOr(map[]))
  {
    AddAuthCases(h, s, origin, path, o, headers.GetOr(map[]), seed0);
  }

  /** A first response that is not a challenged 401, or a 401 without truthy credentials, is
      returned as it is, after one request. */
  lemma NoRetry(h: Primitive, net: Network, s: SessionState, origin: string, path: string,
                o: Options, req: Request, seed: string)
    requires !Challenged(net(0, req)) || (o.auth.Some? && !HasCredentials(o))
    ensures AfterFirst(h, net, s, origin, path, o, req, seed) == Exchange(Ok(net(0, req)), s, [req], req.headers)
  {
  }

  /** A second request is sent only after a challenged 401 with truthy credentials, and then the
      origin's entry holds the new challenge's scheme and parameters and the user name. */
  lemma RetryReplacesEntry(h: Primitive, net: Network, s: SessionState, origin: string, path: string,
                           o: Options, req: Request, seed: string)
    ensures var r := AfterFirst(h, net, s, origin, path, o, req, seed);
            |r.calls| == 2 ==>
              && Challenged(net(0, req)) && HasCredentials(o)
              && origin in r.state.originData
              && r.state.originData[origin].(nc := 1) == Answered(net(0, req), o)
  {
    var r := AfterFirst(h, net, s, origin, path, o, req, seed);
    if |r.calls| == 2 {
      var s' := Store(s, origin, Answered(net(0, req), o));
      AddAuthKeepsEntry(h, s', origin, path, o, req.headers, seed);
    }
  }

  /** After a challenged 401 with truthy credentials the origin's entry is replaced by the new
      challenge, whether or not a retry follows; the retry is sent exactly when
      addAuthentication, run on the replaced entry, succeeds and attaches a header, and it
      carries the headers addAuthentication made. */
  lemma ChallengeRetriedIff(h: Primitive, net: Network, s: SessionState, origin: string, path: string,
                            o: Options, req: Request, seed: string)
    requires Challenged(net(0, req)) && HasCredentials(o)
    ensures var r := AfterFirst(h, net, s, origin, path, o, req, seed);
            var again := AddAuth(h, Store(s, origin, Answered(net(0, req), o)), origin, path, o, req.headers, seed);
            && origin in r.state.originData
            && r.state.originData[origin].(nc := 1) == Answered(net(0, req), o)
            && (|r.calls| == 2 <==> again.result.Ok? && again.result.value.attached)
            && (|r.calls| == 2 ==> r.calls[1] == Send(origin, path, o, again.result.value.headers)
                                   && r.result == Ok(net(1, r.calls[1])))
            && (again.result.Err? ==> |r.calls| == 1 && r.result == Err(again.result.error))
  {
    var s' := Store(s, origin, Answered(net(0, req), o));
    AddAuthKeepsEntry(h, s', origin, path, o, req.headers, seed);
  }

  /** A challenge that names the Digest scheme and offers `qop`, answered with truthy
      credentials, is retried with the Digest header computed from the new challenge (count 2
      when its nonce is the session's last one, 1 otherwise) when it names an `algorithm`;
      without one, createDigestAuth throws and nothing is retried. */
  lemma DigestChallengeRetried(h: Primitive, net: Network, s: SessionState, origin: string, path: string,
                               o: Options, req: Request, seed: string)
    requires Challenged(net(0, req)) && HasCredentials(o)
    requires var ah := Parse(net(0, req).wwwAuthenticate.value);
             ah.scheme == Some("Digest") && "qop" in ah.params
    ensures var r := AfterFirst(h, net, s, origin, path, o, req, seed);
            var od := Answered(net(0, req), o);
            var nc := if Get(od.challenge, "nonce") == s.lastNonce then 2 else 1;
            var auth := Authorization(h, od.challenge, DigestRequest(o, o.auth.value, od, path, seed), nc);
            && ("algorithm" in od.challenge ==>
                  && |r.calls| == 2
                  && r.calls[1].headers == req.headers["Authorization" := auth.value]
                  && r.result == Ok(net(1, r.calls[1])))
            && ("algorithm" !in od.challenge ==> |r.calls| == 1 && r.result == Err(TypeError))
  {
    var od := Answered(net(0, req), o);
    var s' := Store(s, origin, od);
    assert s'.lastNonce == s.lastNonce && s'.originData[origin] == od;
    ChallengeRetriedIff(h, net, s, origin, path, o, req, seed);
    DigestAttached(h, s', origin, path, o, req.headers, seed);
  }

  /** A challenge that names the Basic scheme, answered with truthy credentials that btoa
      accepts, is always retried, with the Basic header. */
  lemma BasicChallengeRetried(h: Primitive, net: Network, s: SessionState, origin: string, path: string,
                              o: Options, req: Request, seed: string)
    requires Challenged(net(0, req)) && HasCredentials(o) && BasicAuth(o.auth).Ok?
    requires Parse(net(0, req).wwwAuthenticate.value).scheme == Some("Basic")
    ensures var r := AfterFirst(h, net, s, origin, path, o, req, seed);
            && |r.calls| == 2
            && r.calls[1].headers == req.headers["Authorization" := BasicAuth(o.auth).value]
            && r.result == Ok(net(1, r.calls[1]))
  {
  }

  // ---------------------------------------------------------------------------
  // The class

  /** The options object a caller passes to `fetch`; `fetch` fills in `headers`. */
  class RequestOptions {
    var httpMethod: Option<string>
    var body: Option<string>
    var auth: Option<Credentials>
    var headers: Option<map<string, string>>

    constructor(httpMethod: Option<string>, body: Option<string>, auth: Option<Credentials>,
                headers: Option<map<string, string>>)
      ensures this.httpMethod == httpMethod && this.body == body && this.auth == auth
      ensures this.headers == headers
    {
      this.httpMethod := httpMethod;
      this.body := body;
      this.auth := auth;
      this.headers := headers;
    }

    function Fixed(): Options
      reads this
    {
      Options(httpMethod, body, auth)
    }
  }

  class FetchSession {
    var originData: map<string, OriginData>
    var lastNonce: Option<string>

    /** A new session knows no origin, and its `lastNonce` is undefined. */
    constructor()
      ensures originData == map[] && lastNonce == None
    {
      originData := map[];
      lastNonce := None;
    }

    function State(): SessionState
      reads this
    {
      SessionState(originData, lastNonce)
    }

    /** getOriginData. */
    function GetOriginData(origin: string): (r: Option<OriginData>)
      reads this
      ensures r == Lookup(State(), origin)
    {
      if origin in originData then Some(originData[origin]) else None
    }

    /** setOriginData. */
    method SetOriginData(origin: string, od: OriginData)
      modifies this
      ensures State() == Store(old(State()), origin, od)
    {
      originData := originData[origin := od];
    }

    /** createBasicAuth. */
    function CreateBasicAuth(opts: RequestOptions): (r: Result<string, JsError>)
      reads opts
      ensures r == BasicAuth(opts.auth)
    {
      match opts.auth
      case None => Err(TypeError)
      case Some(c) =>
        var t := Btoa(c.username + ":" + c.password);
        if t.Err? then Err(t.error) else Ok("Basic " + t.value)
    }

    /** createDigestAuth: the count and `lastNonce` are updated in place, in the middle of the
        calculation. */
    method CreateDigestAuth(h: Primitive, origin: string, path: string, opts: RequestOptions, seed: string)
      returns (r: Result<string, JsError>)
      modifies this
      ensures Step(r, State()) == DigestAuth(h, old(State()), origin, path, opts.Fixed(), seed)
    {
      var od := GetOriginData(origin);
      if od.None? || opts.auth.None? {
        return Err(TypeError);
      }
      var data := od.value;
      var inp := DigestRequest(opts.Fixed(), opts.auth.value, data, path, seed);
      if "qop" !in data.challenge {
        return Err(TypeError);
      }
      var nonce := Get(data.challenge, "nonce");
      if nonce == lastNonce {
        data := data.(nc := data.nc + 1);
      } else {
        data := data.(nc := 1);
      }
      originData := originData[origin := data];
      lastNonce := nonce;
      r := Authorization(h, data.challenge, inp, data.nc);
    }

    /** addAuthentication: `opts.headers` exists whenever fetch calls it. */
    method AddAuthentication(h: Primitive, origin: string, path: string, opts: RequestOptions, seed: string)
      returns (r: Result<bool, JsError>)
      requires opts.headers.Some?
      modifies this, opts
      ensures var x := AddAuth(h, old(State()), origin, path, opts.Fixed(), old(opts.headers.value), seed);
              && State() == x.state && opts.Fixed() == old(opts.Fixed())
              && (r.Ok? <==> x.result.Ok?) && (r.Err? ==> r.error == x.result.error)
              && opts.headers == Some(if x.result.Ok? then x.result.value.headers else old(opts.headers.value))
              && (r.Ok? ==> r.value == x.result.value.attached)
    {
      var scheme := if origin in originData then originData[origin].authScheme else None;
      if scheme == Some("Digest") {
        var v := CreateDigestAuth(h, origin, path, opts, seed);
        if v.Err? {
          return Err(v.error);
        }
        opts.headers := Some(opts.headers.value["Authorization" := v.value]);
      } else if scheme == Some("Basic") {
        var v := CreateBasicAuth(opts);
        if v.Err? {
          return Err(v.error);
        }
        opts.headers := Some(opts.headers.value["Authorization" := v.value]);
      } else {
        return Ok(false);
      }
      return Ok(true);
    }

    /** fetch: `calls` lists the requests sent, in order. */
    method Fetch(h: Primitive, net: Network, origin: string, path: string, opts: RequestOptions,
                 seed0: string, seed1: string)
      returns (r: Result<Response, JsError>, calls: seq<Request>)
      modifies this, opts
      ensures var x := FetchExchange(h, net, old(State()), origin, path, old(opts.Fixed()), old(opts.headers), seed0, seed1);
              && r == x.result && calls == x.calls && State() == x.state
              && opts.headers == Some(x.headers) && opts.Fixed() == old(opts.Fixed())
    {
      if opts.headers.None? {
        opts.headers := Some(map[]);
      }
      var attached := AddAuthentication(h, origin, path, opts, seed0);
      if attached.Err? {
        return Err(attached.error), [];
      }
      var req := Send(origin, path, opts.Fixed(), opts.headers.value);
      r, calls := SendAndAnswer(h, net, origin, path, opts, req, seed1);
    }

    /** The rest of fetch: send the request, and answer a challenged 401 once. */
    method SendAndAnswer(h: Primitive, net: Network, origin: string, path: string, opts: RequestOptions,
                         req: Request, seed: string)
      returns (r: Result<Response, JsError>, calls: seq<Request>)
      requires opts.headers == Some(req.headers)
      modifies this, opts
      ensures var x := AfterFirst(h, net, old(State()), origin, path, opts.Fixed(), req, seed);
              && r == x.result && calls == x.calls && State() == x.state
              && opts.headers == Some(x.headers) && opts.Fixed() == old(opts.Fixed())
    {
      var resp := net(0, req);
      calls := [req];
      if resp.status == 401 && Or(resp.wwwAuthenticate, "") != "" {
        var authHdr := ParseWWWAuth(resp.wwwAuthenticate.value);
        if opts.auth.None? {
          return Err(TypeError), calls;
        }
        var auth := opts.auth.value;
        if auth.username != "" && auth.password != "" {
          SetOriginData(origin, OriginData(authHdr.scheme, authHdr.params, auth.username, 1));
          var attached := AddAuthentication(h, origin, path, opts, seed);
          if attached.Err? {
            return Err(attached.error), calls;
          }
          if attached.value {
            var req2 := Send(origin, path, opts.Fixed(), opts.headers.value);
            resp := net(1, req2);
            calls := calls + [req2];
          }
        }
      }
      r := Ok(resp);
    }
  }
}

=== FILE: settings.dfy ===
/** `extraArgs` of the account settings page: the base URL the user typed, trimmed and made to
    end with a slash, wrapped as a character preference. */
module Settings {
  import opened Text

  /** The text's last character is `/`. */
  predicate EndsInSlash(s: string) {
    s != [] && s[|s| - 1] == '/'
  }

  /** A preference value as the account setup reads it: `{ type, value }`. */
  datatype Pref = Pref(kind: string, value: string)

  /** The object extraArgs returns: `{ baseURL: { type: "char", value } }`. */
  datatype ExtraArgs = ExtraArgs(baseURL: Pref)

  /** The trimmed text with a `/` appended unless its last character already is one; on the
      empty string `baseURL[-1]` is undefined, which is not `/`. */
  function NormalizeBaseUrl(typed: string): (url: string)
    ensures |url| >= 1 && url[|url| - 1] == '/'
  {
    var t := Trim(typed);
    if t != [] && t[|t| - 1] == '/' then t else t + "/"
  }

  /** extraArgs, given the text of the `baseURL` field: a `char` preference holding the typed
      text without white space at its ends, with one `/` added unless it already ends in one. */
  function ExtraArgsOf(typed: string): (r: ExtraArgs)
    ensures r.baseURL.kind == "char"
    ensures var t := Trim(typed);
            var v := r.baseURL.value;
            && EndsInSlash(v) && Trim(v) == v
            && (EndsInSlash(t) ==> v == t)
            && (!EndsInSlash(t) ==> v == t + "/")
  {
    var url := NormalizeBaseUrl(typed);
    NormalizeValue(typed);
    ExtraArgs(Pref("char", url))
  }

  /** What ExtraArgsOf promises of the value, stated of NormalizeBaseUrl. */
  lemma NormalizeValue(typed: string)
    ensures var t := Trim(typed);
            var v := NormalizeBaseUrl(typed);
            && EndsInSlash(v) && Trim(v) == v
            && (EndsInSlash(t) ==> v == t)
            && (!EndsInSlash(t) ==> v == t + "/")
  {
    NormalizeShape(typed);
    NormalizedIsTrimmed(typed);
  }

  /** The result has no white space at its ends, and at most one `/` is ever added: without
      a slash at the end of the trimmed text exactly one is appended, so empty input gives
      `/`. */
  lemma NormalizeShape(typed: string)
    ensures var t := Trim(typed);
            var url := NormalizeBaseUrl(typed);
            && !IsSpace(url[0]) && !IsSpace(url[|url| - 1])
            && (t != [] && t[|t| - 1] == '/' ==> url == t)
            && (t == [] || t[|t| - 1] != '/' ==> url == t + "/" && url[..|t|] == t)
            && (Trim(typed) == [] ==> url == "/")
  {
    var t := Trim(typed);
    var url := NormalizeBaseUrl(typed);
    assert !IsSpace('/');
    if t == [] || t[|t| - 1] != '/' {
      assert url == t + "/";
      assert url[..|t|] == t;
      if t != [] {
        assert url[0] == t[0];
      }
    }
  }

  /** The result is its own trim. */
  lemma NormalizedIsTrimmed(typed: string)
    ensures Trim(NormalizeBaseUrl(typed)) == NormalizeBaseUrl(typed)
  {
    NormalizeShape(typed);
    TrimUnchanged(NormalizeBaseUrl(typed));
  }

  /** A URL that is its own trim and ends with `/` is left as it is. */
  lemma NormalizeFixed(url: string)
    requires Trim(url) == url && url != [] && url[|url| - 1] == '/'
    ensures NormalizeBaseUrl(url) == url
  {
  }

  /** Normalising a second time changes nothing. */
  lemma NormalizeIdempotent(typed: string)
    ensures NormalizeBaseUrl(NormalizeBaseUrl(typed)) == NormalizeBaseUrl(typed)
  {
    NormalizedIsTrimmed(typed);
    NormalizeFixed(NormalizeBaseUrl(typed));
  }
}

=== FILE: text.dfy ===
/** The JavaScript string operations the source relies on, on `seq<char>`. */
module Text {
  import opened Wrappers

  /** The regular-expression class `\s`: ECMAScript WhiteSpace and LineTerminator. */
  predicate IsSpace(c: char) {
    c == '\t' || c == '\n' || c == '\U{000B}' || c == '\U{000C}' || c == '\r' || c == ' '
    || c == '\U{00A0}' || c == '\U{1680}' || ('\U{2000}' <= c <= '\U{200A}')
    || c == '\U{2028}' || c == '\U{2029}' || c == '\U{202F}' || c == '\U{205F}'
    || c == '\U{3000}' || c == '\U{FEFF}'
  }

  /** The characters the regular-expression `.` does not match. */
  predicate IsLineTerminator(c: char) {
    c == '\n' || c == '\r' || c == '\U{2028}' || c == '\U{2029}'
  }

  predicate IsDigit(c: char) { '0' <= c <= '9' }

  // ---------------------------------------------------------------------------
  // Values that may be `undefined`

  /** `x || d` on a string that may be undefined: the empty string is falsy too. */
  function Or(x: Option<string>, d: string): (r: string)
    ensures x.Some? && x.value != [] ==> r == x.value
    ensures x.None? || x.value == [] ==> r == d
  {
    if x.Some? && x.value != [] then x.value else d
  }

  /** A template literal's rendering of a string that may be undefined. */
  function Str(x: Option<string>): (r: string)
    ensures x.Some? ==> r == x.value
    ensures x.None? ==> r == "undefined"
  {
    x.GetOr("undefined")
  }

  /** A property read on a table of strings: undefined when the key is absent. */
  function Get(m: map<string, string>, k: string): (r: Option<string>)
    ensures r.Some? <==> k in m
    ensures r.Some? ==> r.value == m[k]
  {
    if k in m then Some(m[k]) else None
  }

  predicate AllDigits(s: string) { forall i :: 0 <= i < |s| ==> IsDigit(s[i]) }

  // ---------------------------------------------------------------------------
  // String.prototype.trim

  function TrimStart(s: string): (r: string)
    ensures |r| <= |s| && r == s[|s| - |r|..]
    ensures r == [] || !IsSpace(r[0])
    ensures forall i :: 0 <= i < |s| - |r| ==> IsSpace(s[i])
  {
    if s != [] && IsSpace(s[0]) then TrimStart(s[1..]) else s
  }

  function TrimEnd(s: string): (r: string)
    ensures |r| <= |s| && r == s[..|r|]
    ensures r == [] || !IsSpace(r[|r| - 1])
    ensures forall i :: |r| <= i < |s| ==> IsSpace(s[i])
  {
    if s != [] && IsSpace(s[|s| - 1]) then TrimEnd(s[..|s| - 1]) else s
  }

  /** Removes leading and trailing white space and line terminators. */
  function Trim(s: string): (r: string)
    ensures r == [] || (!IsSpace(r[0]) && !IsSpace(r[|r| - 1]))
  {
    TrimEnd(TrimStart(s))
  }

  /** A string with no white space at either end is its own trim. */
  lemma TrimUnchanged(s: string)
    requires s == [] || (!IsSpace(s[0]) && !IsSpace(s[|s| - 1]))
    ensures Trim(s) == s
  {
  }

  // ---------------------------------------------------------------------------
  // Number.prototype.toString() for naturals, and reading digits back

  function Digit(d: nat): (c: char)
    requires d < 10
    ensures IsDigit(c) && c as int - '0' as int == d
  {
    ('0' as int + d) as char
  }

  /** The decimal rendering of `n`, as `n.toString()` gives it. */
  function Decimal(n: nat): (s: string)
    ensures 1 <= |s| && AllDigits(s)
  {
    if n < 10 then [Digit(n)] else Decimal(n / 10) + [Digit(n % 10)]
  }

  /** The value of a run of decimal digits; leading zeros are allowed. */
  function DigitsValue(s: string): nat
    requires AllDigits(s)
  {
    if s == [] then 0 else DigitsValue(s[..|s| - 1]) * 10 + (s[|s| - 1] as int - '0' as int)
  }

  lemma {:induction false} DecimalRoundTrip(n: nat)
    ensures DigitsValue(Decimal(n)) == n
  {
    if n >= 10 {
      var s := Decimal(n);
      assert s[..|s| - 1] == Decimal(n / 10);
      DecimalRoundTrip(n / 10);
    }
  }

  /** `n.toString()` determines `n`. */
  lemma DecimalInjective(m: nat, n: nat)
    requires Decimal(m) == Decimal(n)
    ensures m == n
  {
    DecimalRoundTrip(m);
    DecimalRoundTrip(n);
  }

  function Pow10(k: nat): (p: nat)
    ensures p >= 1
  {
    if k == 0 then 1 else 10 * Pow10(k - 1)
  }

  /** `n.toString()` has at most `k` digits exactly when `n < 10^k`. */
  lemma {:induction false} DecimalLength(n: nat, k: nat)
    requires k >= 1
    ensures |Decimal(n)| <= k <==> n < Pow10(k)
  {
    if n >= 10 && k >= 2 {
      DecimalLength(n / 10, k - 1);
    }
    if k == 1 && n >= 10 {
      assert |Decimal(n)| == |Decimal(n / 10)| + 1;
    }
    if n >= 10 && k >= 2 {
      assert n / 10 < Pow10(k - 1) <==> n < Pow10(k);
    }
  }

  function Repeat(c: char, k: nat): (r: string)
    ensures |r| == k && forall i :: 0 <= i < k ==> r[i] == c
  {
    if k == 0 then [] else Repeat(c, k - 1) + [c]
  }

  /** String.prototype.padStart(width, fill) with a one-character fill. */
  function PadStart(s: string, width: nat, fill: char): (r: string)
    ensures |s| >= width ==> r == s
    ensures |s| < width ==> |r| == width
    ensures r == Repeat(fill, |r| - |s|) + s
  {
    if |s| >= width then s else Repeat(fill, width - |s|) + s
  }

  /** Leading zeros do not change the value of a digit string. */
  lemma {:induction false} LeadingZerosValue(k: nat, s: string)
    requires AllDigits(s)
    ensures AllDigits(Repeat('0', k) + s)
    ensures DigitsValue(Repeat('0', k) + s) == DigitsValue(s)
  {
    var t := Repeat('0', k) + s;
    if s == [] {
      assert t == Repeat('0', k);
      ZerosValue(k);
    } else {
      assert t[..|t| - 1] == Repeat('0', k) + s[..|s| - 1];
      LeadingZerosValue(k, s[..|s| - 1]);
    }
  }

  lemma {:induction false} ZerosValue(k: nat)
    ensures AllDigits(Repeat('0', k)) && DigitsValue(Repeat('0', k)) == 0
  {
    if k > 0 {
      assert Repeat('0', k)[..k - 1] == Repeat('0', k - 1);
      ZerosValue(k - 1);
    }
  }

  // ---------------------------------------------------------------------------
  // Case-insensitive matching

  /** String.prototype.toLowerCase on the ASCII letters; every other character is kept. */
  function LowerChar(c: char): char {
    if 'A' <= c <= 'Z' then (c as int + 32) as char else c
  }

  function Lower(s: string): (r: string)
    ensures |r| == |s| && forall i :: 0 <= i < |s| ==> r[i] == LowerChar(s[i])
  {
    seq(|s|, i requires 0 <= i < |s| => LowerChar(s[i]))
  }

  predicate EndsWith(s: string, suffix: string) {
    |suffix| <= |s| && s[|s| - |suffix|..] == suffix
  }

  /** `pat` occurs at `i` in `s`, ignoring the case of ASCII letters. */
  predicate OccursAtCI(s: string, pat: string, i: nat) {
    i + |pat| <= |s| && Lower(s[i..i + |pat|]) == Lower(pat)
  }

  /** The first position where `pat` occurs in `s`, ignoring ASCII case. */
  function IndexOfCI(s: string, pat: string, from: nat): (r: Option<nat>)
    requires from <= |s|
    ensures r.None? ==> forall i :: from <= i <= |s| ==> !OccursAtCI(s, pat, i)
    ensures r.Some? ==> from <= r.value && OccursAtCI(s, pat, r.value)
                        && forall i :: from <= i < r.value ==> !OccursAtCI(s, pat, i)
    decreases |s| - from
  {
    if OccursAtCI(s, pat, from) then Some(from)
    else if from == |s| then None
    else IndexOfCI(s, pat, from + 1)
  }

  /** `s.replace(/pat/i, "")`: removes the first case-insensitive occurrence of `pat`. */
  function RemoveFirstCI(s: string, pat: string): (r: string)
    ensures IndexOfCI(s, pat, 0).None? ==> r == s
    ensures IndexOfCI(s, pat, 0).Some? ==>
              var i := IndexOfCI(s, pat, 0).value; r == s[..i] + s[i + |pat|..]
  {
    match IndexOfCI(s, pat, 0)
    case None => s
    case Some(i) => s[..i] + s[i + |pat|..]
  }
}

=== FILE: wrappers.dfy ===
/** Option and Result, used for JavaScript's `undefined` and for thrown exceptions. */
module Wrappers {

  /** A value that may be absent (`undefined` / `null` in the source). */
  datatype Option<+T> = None | Some(value: T) {
    function GetOr(default: T): T {
      match this
      case Some(v) => v
      case None => default
    }
  }

  /** The outcome of an operation that may throw. */
  datatype Result<+T, +E> = Ok(value: T) | Err(error: E)

  /** The exceptions the modelled JavaScript can throw. `TypeError` is a property read on
      `undefined`; `InvalidCharacterError` is `btoa` given a character above U+00FF. */
  datatype JsError = TypeError | InvalidCharacterError
}
